=== FILE: README.md ===
# ADGM chatbot pipeline — a Dafny model

This project models the core of a small retrieval chatbot for Abu Dhabi
Global Market (ADGM), in four parts:

- **Sitemap** (`parse_sitemap.py`). Collects the `<loc>` text of every
  `<url>` entry of a sitemap and writes one URL per line to `adgm_urls.txt`.
- **VectorStore** (`extract.py`). Reads that file back with `readlines()` and
  `strip()`, fetches and cleans each page, and cuts the text into chunks with
  `chunk_text`. It then embeds every non-blank chunk with up to three
  attempts and collects `{url, text, embedding}` records in order.
  **Chunker** holds `chunk_text` itself.
- **Crawler** (`crawl_adgm.py`). A depth-limited recursive crawl from
  `https://www.adgm.com`. It follows only URLs that start with that string,
  fetches each URL at most once and records every page it could fetch. The
  records are then numbered `"1"`, `"2"`, ….
- **Chat** (`app3.py`). The fixed system prompt and the message list sent to
  the completion service. It also models what one run of the page does to
  `chat_history` and `last_input`, and what it shows.

Everything outside the program is a parameter given as a function value:
- the tokenizer;
- page fetching and `get_text`;
- the embedding service, keyed by the running call number and the chunk;
- the crawler's web, a page oracle plus `urljoin`;
- the chat completion service.

A `None` from an oracle stands for an exception, and the model takes the
branch the source takes on it. Python's `str.split()`, `strip()`,
`" ".join`, `readlines()` and `str(n)` are modelled concretely in `Text`,
with Python's exact whitespace set.

Behaviour the model makes explicit:
- **`chunk_text` closes a chunk when the grown chunk reaches the budget.**
  The test is `>=`, not `>`. With one token per word and a budget of two,
  `a b c d e` gives the five one-word chunks `a`, `b`, `c`, `d`, `e`, not
  `a b`, `c d`, `e`: every chunk is a single word
  (`Chunker.ChunkTextPairBudget`).
- **A first word that alone reaches the budget produces `""` as chunk 0.**
  This happens because `pop()` empties the chunk before it is joined. No
  other chunk is ever empty. The build loop skips that chunk as blank.
- **The prompt's two placeholders are sent as literal text.**
  `{retrieved_text}` and `{user_question}` are never filled in. No retrieved
  text reaches the model.
- **Two prompt lines run together.** Adjacent string literals concatenate
  with nothing between them, so the sentence about outside sources runs
  straight into `Responsibilities:`.
- **The crawl scope is a string-prefix test, not an origin test.**
  `https://www.adgm.com.example.org/` is in scope, and `http://www.adgm.com`
  is not (`Crawler.PrefixIsNotOrigin`).

## Model

| member | source | states |
|---|---|---|
| Text.Split | extract.py:26 | `split()` returns non-empty runs of non-whitespace (Python's `isspace` set); the list is empty exactly when the text is all whitespace |
| Text.SplitOfWord | extract.py:26 | a non-empty string without whitespace splits into itself alone |
| Text.SplitAtSpace | extract.py:26 | a whitespace character separates: splitting `a + c + b` gives the words of `a` followed by the words of `b` |
| Text.Join | extract.py:33 | `" ".join` of no words is `""`; otherwise the result starts with the first word and is as long as the words plus one separator between each pair |
| Text.SplitJoin | extract.py:33 | splitting `" ".join(words)` gives back exactly the words, for any list of non-empty whitespace-free words |
| Text.JoinBlank | extract.py:62 | a joined chunk is blank exactly when it has no words |
| Text.Strip | extract.py:11 | `strip()` leaves no whitespace at either end; it is a contiguous piece of the input with only whitespace cut on each side; it is empty exactly when the input is blank |
| Text.StripTrimmed | extract.py:11 | a string with no whitespace at its ends is its own `strip()` |
| Text.StripTrailingSpace | extract.py:11 | a trailing whitespace character, such as a line's newline, does not change `strip()` |
| Text.ReadLines | extract.py:11 | the lines from `readlines()` concatenate back to the file text; each is non-empty; each but the last ends in a newline; none has a newline before its last character |
| Text.NatToDecimal | crawl_adgm.py:29 | `str(n)` is a non-empty string of decimal digits without a leading zero |
| Text.DecimalRoundTrip | crawl_adgm.py:29 | reading `str(n)` back as a decimal number gives `n` |
| Text.DecimalInjective | crawl_adgm.py:29 | distinct numbers give distinct strings |
| Chunker.Pack | extract.py:30-38 | the word loop loses, adds and reorders nothing: the chunks flatten to the open chunk followed by the unseen words; the open chunk begins the first chunk |
| Chunker.PackUnderBudget | extract.py:31-36 | every chunk of two or more words measures strictly under the budget |
| Chunker.PackPrefixes | extract.py:31-36 | every grown chunk is measured, so each prefix of two or more words of every emitted chunk measures strictly under the budget, for any tokenizer |
| Chunker.PackGreedy | extract.py:31-36 | every chunk after the first is non-empty, and each boundary falls where adding the next chunk's first word would reach the budget |
| Chunker.PackNonEmpty | extract.py:30-38 | from a non-empty open chunk, every chunk is non-empty and there is at most one more chunk than unseen words |
| Chunker.ChunkWordsShape | extract.py:25-39 | no words gives no chunks; at most one chunk more than words; a chunk is empty exactly when it is chunk 0 and the first word alone reaches the budget |
| Chunker.ChunkedWordsAreWords | extract.py:26-36 | every word placed in a chunk is a word of the text |
| Chunker.JoinAllRoundTrip | extract.py:35-38 | splitting each joined chunk gives its word list back; only the empty word list joins to `""` |
| Chunker.ChunkText | extract.py:25-39 | the chunks' words, in order, are exactly the text's words; each chunk string is its words joined by single spaces; every prefix of two or more words of a chunk is under budget; `""` appears only as chunk 0, when the first word reaches the budget; every boundary is forced by the next word; no words gives no chunks |
| Chunker.ChunkWords | extract.py:25-39 | the chunks of a word list flatten back to exactly that list, and every prefix of two or more words of a chunk, the whole chunk included, is under budget |
| Chunker.ChunkTextPairBudget | extract.py:33 | with one token per word and a budget of two, the chunks are the text's words one by one |
| VectorStore.ReadUrlFile | extract.py:10-11 | one entry per line of the file, entry `i` being the stripped line `i`; none has whitespace at its ends or a newline inside |
| VectorStore.Retry | extract.py:65-81 | the loop returns an embedding exactly when one of its attempts succeeds; that embedding comes from the first success, and no attempt is made after it; with no success, every attempt is used |
| VectorStore.EmbedWithRetry | extract.py:65-85 | one to three calls; a record exactly when some attempt succeeds, carrying the URL, the chunk and the embedding of the last call made, every earlier attempt having failed; three failures use all three calls and store nothing |
| VectorStore.EmbedChunk | extract.py:61-65 | a chunk that is whitespace only makes no call and no record; any other chunk goes through the three-attempt loop; at most one record either way |
| VectorStore.EmbedChunks | extract.py:61-85 | the call counter never goes back, and there is at most one record per chunk |
| VectorStore.ProcessUrl | extract.py:52-59 | a URL whose fetch raised or gave empty text is skipped before any embedding call; otherwise its records and calls are those of the chunk loop over `chunk_text` of the fetched text at the 500-token budget |
| VectorStore.ProcessUrlAllSucceed | extract.py:52-79 | with a service that never fails, a fetched URL's stored texts are exactly the non-blank chunks of its text, in order |
| VectorStore.Build | extract.py:52-85 | the call counter never goes back over the whole build |
| VectorStore.EmbedChunksProvenance | extract.py:61-78 | every record of a URL's chunk loop names that URL and carries one of its non-blank chunks |
| VectorStore.ProcessUrlProvenance | extract.py:52-78 | the records of one URL come from that URL's successfully fetched, chunked content |
| VectorStore.BuildProvenance | extract.py:52-78 | every stored record names a listed URL whose fetch succeeded, and its text is a non-blank chunk of that URL's content |
| VectorStore.EmbedChunksOne | extract.py:61-85 | the loop over one chunk is that chunk's step: skip if blank, otherwise up to three attempts |
| VectorStore.EmbedChunksAppend | extract.py:61 | chunks are processed in order: the records of two consecutive runs of chunks are the first run's records followed by the second's |
| VectorStore.BuildOne | extract.py:52-85 | the build over one URL is that URL's step |
| VectorStore.BuildAppend | extract.py:52 | URLs are processed in order: building over two consecutive lists gives the first list's records followed by the second's |
| VectorStore.EmbedChunksAllSucceed | extract.py:61-79 | with a service that never fails, the stored texts are exactly the non-blank chunks in order, at one call each |
| VectorStore.EmbedChunksAllFail | extract.py:65-85 | with a service that always fails, nothing is stored and every non-blank chunk costs exactly three calls |
| VectorStore.BuildAllFail | extract.py:52-85 | with a service that always fails, the vector store stays empty |
| Sitemap.Find | parse_sitemap.py:10 | `find` gives nothing exactly when no direct child has the tag; otherwise the first direct child with that tag |
| Sitemap.FirstIndex | parse_sitemap.py:10 | `find` picks the first child with the tag; none before it has that tag |
| Sitemap.FindAll | parse_sitemap.py:9 | `findall` keeps exactly the direct children with the tag |
| Sitemap.FindAllAppend | parse_sitemap.py:9 | `findall` keeps document order |
| Sitemap.LocTexts | parse_sitemap.py:9-11 | one entry per `<url>`, each the text of its first `<loc>`; fails at the first `<url>` without a `<loc>`, and only there |
| Sitemap.ExtractUrls | parse_sitemap.py:9-11 | succeeds exactly when every `<url>` child of the root has a `<loc>`; then entry `i` is the text of the first `<loc>` of the `i`-th `<url>`; otherwise it fails with a missing `<loc>` at a `<url>` that has none |
| Sitemap.WriteUrlFile | parse_sitemap.py:14-16 | writing succeeds exactly when every `<loc>` had text; otherwise it stops at the first entry without one |
| Sitemap.WriteUrlFileSerializes | parse_sitemap.py:14-16 | a successful write is the texts, each followed by a newline, in order |
| Sitemap.Serialize | parse_sitemap.py:14-16 | the file is empty exactly when there are no URLs, and otherwise ends in a newline |
| Sitemap.SerializeOne | parse_sitemap.py:16 | one URL is written as `u + "\n"`, whatever characters it holds |
| Sitemap.SerializeAppend | parse_sitemap.py:15-16 | the URLs are written one after another, so the file for two consecutive lists is the first's file followed by the second's |
| Sitemap.ReadLinesSerialize | parse_sitemap.py:14-16 | `readlines()` on the written file gives back each URL with its newline, one line per URL |
| Sitemap.UrlFileRoundTrip | parse_sitemap.py:14-16 | for URLs without a line break (`\n` or `\r`), the list read back from the URL file has one entry per URL written, each the stripped URL; URLs without surrounding whitespace come back unchanged |
| Sitemap.SitemapToUrlList | parse_sitemap.py:9-16 | the two scripts in sequence, for `<loc>` texts without a line break: the build reads back exactly the stripped `<loc>` texts, in sitemap order |
| Crawler.Truncate | crawl_adgm.py:18 | `text[:3000]` is the prefix of exactly 3000 characters, or the whole text when it is no longer |
| Crawler.InScope | crawl_adgm.py:11 | `url.startswith(BASE_URL)` holds exactly when the URL's first characters are `https://www.adgm.com` |
| Crawler.PrefixIsNotOrigin | crawl_adgm.py:11 | the scope test accepts a different host whose name starts with the site's, and rejects the `http` form of the site |
| Crawler.Crawl | crawl_adgm.py:10-22 | state only grows; a visited, out-of-scope or too-deep URL changes nothing; otherwise the URL is marked visited and requested next; a failed request changes nothing else; a fetched page's record is stored next, before those of its links; every in-scope URL at an allowed depth ends up visited, and so does every in-scope link target of a page fetched below the depth limit; the crawl invariant is kept, and so is "every fetched visited URL has a record" |
| Crawler.CrawlLinksOne | crawl_adgm.py:19-20 | following one link crawls its target resolved against `BASE_URL`, one level deeper |
| Crawler.CrawlLinksAppend | crawl_adgm.py:19-20 | links are followed in document order: two consecutive runs of links are the first run followed by the second from the state it leaves, so requests and records come in pre-order |
| Crawler.CrawlLinks | crawl_adgm.py:19-20 | following the links only extends the state; links past the depth limit change nothing; within the limit every in-scope resolved link target ends up visited; the invariant is kept, and so is "every fetched visited URL has a record" |
| Crawler.ValidVisit | crawl_adgm.py:13-15 | marking an unvisited in-scope URL visited and requesting it keeps every URL requested once, in scope, and visited |
| Crawler.ValidStore | crawl_adgm.py:18 | storing the page of a fresh URL keeps every record in scope, visited, equal to its page's title and truncated text, and unique by URL |
| Crawler.CrawlSite | crawl_adgm.py:24 | after the crawl, every requested URL was requested once and is in scope; every record matches its fetched page; every visited URL whose page could be fetched has a record; no two records share a URL |
| Crawler.CrawlAtMaxDepth | crawl_adgm.py:11 | a call at depth 2 fetches at most its own URL and follows no link |
| Crawler.LinksAtMaxDepth | crawl_adgm.py:19-20 | the root's links lead only to their own resolved targets, at most one request and one record each |
| Crawler.SiteBounds | crawl_adgm.py:10-24 | the crawl visits only the root and the resolved targets of the root's links; it makes at most one more request and record than the root has links; the first request is the root |
| Crawler.Save | crawl_adgm.py:28-29 | records keep their order and fields; id `i` is `str(i + 1)`: a decimal string without a leading zero reading `i + 1`, so the ids read 1 to N in order and no two are equal |
| Chat.SystemPrompt | app3.py:59-82 | the prompt opens with the preamble, which is the persona, instructions, responsibilities, website line and context label; `{retrieved_text}` occurs literally right after it, and `{user_question}` right after the question label: neither placeholder is ever filled |
| Chat.HistoryMessages | app3.py:88-90 | the history becomes two messages per exchange |
| Chat.HistoryMessagesAt | app3.py:88-90 | exchange `i` of the history becomes a user message and then an assistant message, at positions `2i` and `2i + 1` |
| Chat.Messages | app3.py:85-92 | the message list is the system prompt, then each exchange as a user and an assistant message in order, then the question as a user message |
| Chat.MessagesInjective | app3.py:85-92 | the message list determines the history and the question |
| Chat.GenerateResponse | app3.py:85-105 | a reply exists exactly when the completion call on the built message list succeeds; it is that completion, stripped, so it has no surrounding whitespace |
| Chat.Ask | app3.py:121-124 | asking a question fails exactly when the completion call on the message list built from the history so far fails, and then with that error; on success exactly one exchange is appended, the question with the stripped completion as its reply, the earlier history is kept, and the question becomes `last_input` |
| Chat.Submit | app3.py:120-124 | with no submission or an input that is whitespace only, nothing changes; otherwise the stripped input, which is then never empty, is what gets asked |
| Chat.Redisplay | app3.py:126-132 | fails exactly when `last_input` is set and the history is empty; otherwise it clears `last_input`, leaves the history alone, and shows the last exchange exactly when it belongs to `last_input`; with no `last_input` it does nothing |
| Chat.Run | app3.py:110-132 | a run that gets through clears `last_input` and shows the stored history first, and after an answered question the history is the old one plus exactly `(stripped input, stripped completion)`, shown in full; with nothing asked the history is unchanged; it fails with the completion error exactly when an accepted question's completion fails, and with the indexing error exactly when nothing was asked, `last_input` was set and the history was empty |
| Chat.RunShowsHistory | app3.py:110-132 | from a cleared `last_input`, which every run leaves behind, a run fails only when the completion fails; `last_input` is cleared again, and the screen shows exactly the new history: after an answered question, the stored history followed by `(stripped input, stripped completion)` |

## Left out

- VectorStore.EmbedChunks: its own contract gives only bounds. `EmbedChunksOne` and `EmbedChunksAppend` together fix its result for every chunk list in terms of `EmbedChunk`. `EmbedChunksProvenance`, `EmbedChunksAllSucceed` and `EmbedChunksAllFail` state the consequences.
- VectorStore.Build: its own contract gives only the call-counter bound. `BuildOne` and `BuildAppend` together fix its result for every URL list in terms of `ProcessUrl`. `BuildProvenance` and `BuildAllFail` state the consequences.
- VectorStore.FetchCleanText: it has no contract of its own. `requests.get`, BeautifulSoup and `get_text(separator="\n", strip=True)` are one oracle, and the empty-text fallback on an exception is stated by `ProcessUrl`.
- Network access, timeouts, HTML parsing and `urljoin` are oracles. Fetching is keyed by URL alone, so within one run the same URL always yields the same page.
- `soup.title.string` is `None` when the title does not hold exactly one string (an empty `<title></title>` included); the model takes the title as a string. Exceptions raised inside the crawl other than by fetching (a `urljoin` error, for example) are not modelled.
- The tokenizer (`tiktoken`, `cl100k_base`) is an arbitrary total function from text to a token count. `tokenizer.encode` raises `ValueError` on text holding a special token such as `<|endoftext|>` (extract.py:33); nothing catches it, so the whole build stops before `json.dump` (extract.py:89-90) and no vector file is written. The model does not represent that failure.
- The embedding service is keyed by the running call number and the chunk. This lets the outcome of each attempt differ, but it does not model time or service state beyond that.
- `time.sleep(2)` after a failed attempt, and all `print` logging, have no effect on the data and are left out.
- Writing `adgm_vectors.json` and `adgm_pages.json` (`json.dump`), file open errors, and partially written files are left out. The URL file is modelled as its text.
- `readlines()` is modelled on text already read. Universal-newline translation of `\r\n` and `\r` in text mode is not modelled; only `\n` ends a line. For that reason `Sitemap.UrlFileRoundTrip` and `Sitemap.SitemapToUrlList` promise the round trip only for URLs without `\r`.
- XML parsing (`ET.parse`) is not modelled: the model starts from the element tree.
- `get_system_prompt()` takes no input, so the page always sends `Chat.SystemPrompt`. `GenerateResponse`, `Ask`, `Submit` and `Run` take the prompt as a parameter; what they promise holds for that prompt as for any other.
- The Streamlit page is not modelled: page settings, CSS, the logo, the HTML markup of each message, the spinner, secrets and client construction. The completion parameters (model, temperature, token limit) are part of the completion oracle.
- A completion failure ends the run with an error. The stored session is then left as it was before the run.
- The crawler's module-level `visited` and `data` are threaded through as a state value. The list of requested URLs is an added observation, not program state.


=== FILE: chat.dfy ===
/** The chat page of app3.py without its rendering: the fixed system prompt,
    the message list sent to the completion service, and what one run of the
    page does to the session (`chat_history`, `last_input`). The completion
    service is an oracle. */
module Chat {
  import opened Wrappers
  import opened Text

  datatype Role = System | User | Assistant

  datatype Message = Message(role: Role, content: string)

  /** One entry of `chat_history`: the user's text and the reply. */
  type Exchange = (string, string)

  // The literal pieces `get_system_prompt` concatenates, in order. Python
  // joins adjacent literals with nothing in between, so the sentence about
  // Abu Dhabi Finance Week that ends `Instructions` runs straight into
  // "Responsibilities:".
  const Persona := "You are an AI-powered customer service assistant specifically designed for Abu Dhabi Global Market (ADGM). "
    + "Your role is to provide accurate, clear, and formal information to ADGM customers and visitors based solely on the official ADGM website content provided below.\n\n"
  const Instructions := "Instructions:\n"
    + "- Maintain a formal, respectful, and professional tone.\n\n"
    + "You may also respond to questions specifically related to Abu Dhabi Finance Week (ADFW), as it falls under the scope of ADGM-related topics you can use external sources."
  const Responsibilities := "Responsibilities:\n"
    + "- Use **only** content retrieved from the official ADGM website. Do not use external sources or personal knowledge, even if you are confident in the answer.\n"
    + "- Always quote or reference information from the ADGM website where relevant.\n"
    + "- If the requested information is not available or you are unsure of the answer, respond:\n"
    + "  \"Thank you for your question. Based on the information available to me, I am unable to provide a definitive answer. I kindly recommend contacting ADGM directly at +971 2 333 8888 or via email at contact@adgm.com for further assistance.\"\n"
    + "- If the user's query is not related to ADGM's scope, respond:\n"
    + "  \"I appreciate your inquiry. However, this matter appears to be outside the scope of Abu Dhabi Global Market. For the most effective support, I encourage you to contact the appropriate organization. I am here to assist with ADGM-specific matters only.\"\n"
    + "- If the conversation becomes off-topic, respond:\n"
    + "  \"Let\U{2019}s kindly keep the discussion focused on ADGM-related topics so I can provide you with the most relevant and accurate information. Thank you for your understanding.\"\n\n"
  const WebsiteLine := "Official ADGM Website: https://www.adgm.com\n"
  const ContextLabel := "Information from ADGM website: "
  const ContextPlaceholder := "{retrieved_text}"
  const QuestionLabel := "\nUser\U{2019}s question: "
  const QuestionPlaceholder := "{user_question}"
  const AnswerCue := "\nYour detailed answer:"

  /** The fixed text before the first placeholder. */
  const Preamble := Persona + Instructions + Responsibilities + WebsiteLine + ContextLabel

  /** `p` occurs in `s` at position `i`. */
  predicate OccursAt(s: string, p: string, i: nat)
  {
    i + |p| <= |s| && s[i..i + |p|] == p
  }

  lemma OccursAfter(a: string, p: string, b: string)
    ensures OccursAt(a + p + b, p, |a|)
  {
    assert (a + p + b)[|a|..|a| + |p|] == p;
  }

  lemma OccursBefore(a: string, p: string, b: string, c: string, d: string)
    ensures OccursAt(a + p + b + c + d, p, |a|)
  {
    assert (a + p + b + c + d)[|a|..|a| + |p|] == p;
  }

  /** `get_system_prompt()`: a constant text, since it takes no argument.
      Neither placeholder is ever filled: both occur literally in the prompt,
      which is sent unchanged as the first message of every request (see
      `Messages`); the user's question reaches the model only as the last
      message. */
  function SystemPrompt(): (p: string)
    ensures OccursAt(p, Preamble, 0)
    ensures OccursAt(p, ContextPlaceholder, |Preamble|)
    ensures OccursAt(p, QuestionPlaceholder, |Preamble + ContextPlaceholder + QuestionLabel|)
  {
    var p := Preamble + ContextPlaceholder + QuestionLabel + QuestionPlaceholder + AnswerCue;
    PromptLayout(Preamble, ContextPlaceholder, QuestionLabel, QuestionPlaceholder, AnswerCue, p);
    p
  }

  /** Where the pieces of a five-part concatenation sit in it. */
  lemma PromptLayout(a: string, c: string, q: string, u: string, e: string, p: string)
    requires p == a + c + q + u + e
    ensures OccursAt(p, a, 0)
    ensures OccursAt(p, c, |a|)
    ensures OccursAt(p, u, |a + c + q|)
  {
    assert p[0..|a|] == a;
    OccursBefore(a, c, q, u, e);
    OccursAfter(a + c + q, u, e);
  }

  /** The history as alternating user and assistant messages. */
  function HistoryMessages(history: seq<Exchange>): (ms: seq<Message>)
    ensures |ms| == 2 * |history|
  {
    if history == [] then []
    else [Message(User, history[0].0), Message(Assistant, history[0].1)] + HistoryMessages(history[1..])
  }

  /** Exchange `i` becomes messages `2i` (the user's) and `2i + 1` (the
      reply). */
  lemma {:induction false} HistoryMessagesAt(history: seq<Exchange>, i: nat)
    requires i < |history|
    ensures HistoryMessages(history)[2 * i] == Message(User, history[i].0)
    ensures HistoryMessages(history)[2 * i + 1] == Message(Assistant, history[i].1)
  {
    if i > 0 {
      HistoryMessagesAt(history[1..], i - 1);
      assert history[1..][i - 1] == history[i];
    }
  }

  /** The `messages` list of `generate_response`: the system prompt, each
      exchange of the history as a user then an assistant message, then the
      question. */
  function Messages(prompt: string, history: seq<Exchange>, question: string): (ms: seq<Message>)
    ensures |ms| == 2 * |history| + 2
    ensures ms[0] == Message(System, prompt)
    ensures forall i :: 0 <= i < |history| ==>
      ms[1 + 2 * i] == Message(User, history[i].0) && ms[2 + 2 * i] == Message(Assistant, history[i].1)
    ensures ms[|ms| - 1] == Message(User, question)
  {
    var hs := HistoryMessages(history);
    var ms := [Message(System, prompt)] + hs + [Message(User, question)];
    assert forall i | 0 <= i < |history| ::
      ms[1 + 2 * i] == Message(User, history[i].0) && ms[2 + 2 * i] == Message(Assistant, history[i].1)
    by {
      forall i | 0 <= i < |history|
        ensures ms[1 + 2 * i] == Message(User, history[i].0) && ms[2 + 2 * i] == Message(Assistant, history[i].1)
      {
        HistoryMessagesAt(history, i);
        assert ms[1 + 2 * i] == hs[2 * i] && ms[2 + 2 * i] == hs[2 * i + 1];
      }
    }
    ms
  }

  /** The message list loses nothing: different histories or questions give
      different lists. */
  lemma MessagesInjective(prompt: string, h1: seq<Exchange>, q1: string, h2: seq<Exchange>, q2: string)
    requires Messages(prompt, h1, q1) == Messages(prompt, h2, q2)
    ensures h1 == h2 && q1 == q2
  {
    var ms := Messages(prompt, h1, q1);
    assert |h1| == |h2|;
    forall i | 0 <= i < |h1| ensures h1[i] == h2[i] {
      assert ms[1 + 2 * i].content == h1[i].0 == h2[i].0;
      assert ms[2 + 2 * i].content == h1[i].1 == h2[i].1;
    }
  }

  /** The completion service: the reply to a message list, or `None` when the
      call raises. */
  type Completion = seq<Message> -> Option<string>

  /** `generate_response(question)`: the stripped reply to the message list
      built from the current history. The page always passes `SystemPrompt`
      as `prompt`; the operations below take it as a parameter so that what
      they promise holds whatever the prompt says. */
  function GenerateResponse(complete: Completion, prompt: string, history: seq<Exchange>, question: string): (reply: Option<string>)
    ensures reply.Some? <==> complete(Messages(prompt, history, question)).Some?
    ensures reply.Some? ==> IsTrimmed(reply.value)
    ensures reply.Some? ==> reply.value == Strip(complete(Messages(prompt, history, question)).value)
  {
    match complete(Messages(prompt, history, question))
    case None => None
    case Some(text) => Some(Strip(text))
  }

  /** `st.session_state`: the history and the last accepted input. */
  datatype Session = Session(history: seq<Exchange>, lastInput: string)

  const NewSession := Session([], "")

  /** A run ends early: the completion call raised, or the redisplay step
      indexed an empty history. */
  datatype ChatError = CompletionFailed | NoLastExchange

  /** Lines 121-124 of app3.py for one accepted question: the reply is
      generated from the history so far, and the exchange is appended at the
      end and remembered as the last input; or the completion call raises and
      the session is untouched. */
  function Ask(s: Session, prompt: string, question: string, complete: Completion): (r: Result<Session, ChatError>)
    ensures r.Success? <==> complete(Messages(prompt, s.history, question)).Some?
    ensures r.Failure? ==> r.error == CompletionFailed
    ensures r.Success? ==>
      && |r.value.history| == |s.history| + 1
      && r.value.history[..|s.history|] == s.history
      && r.value.history[|s.history|].0 == question
      && r.value.history[|s.history|].1 == Strip(complete(Messages(prompt, s.history, question)).value)
      && IsTrimmed(r.value.history[|s.history|].1)
      && r.value.lastInput == question
  {
    match GenerateResponse(complete, prompt, s.history, question)
    case None => Failure(CompletionFailed)
    case Some(answer) =>
      var history := s.history + [(question, answer)];
      assert history[..|s.history|] == s.history;
      Success(Session(history, question))
  }

  /** Lines 120-124 of app3.py. Without a submission, or with a blank input,
      the session is unchanged; otherwise the stripped input, which is never
      empty, is asked. */
  function Submit(s: Session, prompt: string, submitted: bool, input: string, complete: Completion): (r: Result<Session, ChatError>)
    ensures !submitted || IsBlank(input) ==> r == Success(s)
    ensures submitted && !IsBlank(input) ==> Strip(input) != "" && r == Ask(s, prompt, Strip(input), complete)
  {
    if submitted && Strip(input) != "" then Ask(s, prompt, Strip(input), complete)
    else Success(s)
  }

  /** Lines 127-132 of app3.py: with a last input remembered, the last
      exchange is shown again when it belongs to that input, and the memory is
      cleared; the history itself is left alone. Indexing an empty history is
      the one way this step fails. */
  function Redisplay(s: Session): (r: Result<(Session, Option<Exchange>), ChatError>)
    ensures r.Failure? <==> s.lastInput != "" && s.history == []
    ensures r.Success? ==> r.value.0 == Session(s.history, "")
    ensures r.Success? && r.value.1.Some? ==>
      s.history != [] && r.value.1.value == s.history[|s.history| - 1] && r.value.1.value.0 == s.lastInput
    ensures s.lastInput != "" && s.history != [] && s.history[|s.history| - 1].0 == s.lastInput ==>
      r == Success((Session(s.history, ""), Some(s.history[|s.history| - 1])))
    ensures s.lastInput == "" ==> r == Success((s, None))
  {
    if s.lastInput != "" then
      if s.history == [] then Failure(NoLastExchange)
      else
        var last := s.history[|s.history| - 1];
        Success((Session(s.history, ""), if last.0 == s.lastInput then Some(last) else None))
    else Success((s, None))
  }

  /** What one run of the page leaves behind: the session, and the exchanges
      on screen in order (the stored history, then the redisplayed one). */
  datatype Screen = Screen(session: Session, shown: seq<Exchange>)

  /** One run of the page's script: show the stored history, handle the form,
      redisplay. Whatever the session, a run that gets through leaves the last
      input cleared and shows the stored history first; after a question is
      answered the screen holds exactly the new history. A run fails with the
      completion's error exactly when an answered question's completion call
      fails, and on the empty history otherwise only when a last input was
      left behind. */
  function Run(s: Session, prompt: string, submitted: bool, input: string, complete: Completion): (r: Result<Screen, ChatError>)
    ensures r.Success? ==> r.value.session.lastInput == "" && s.history <= r.value.shown
    ensures r.Success? && submitted && !IsBlank(input) ==> r.value.shown == r.value.session.history
    ensures r.Success? && submitted && !IsBlank(input) ==>
      && complete(Messages(prompt, s.history, Strip(input))).Some?
      && r.value.session.history ==
           s.history + [(Strip(input), Strip(complete(Messages(prompt, s.history, Strip(input))).value))]
    ensures r.Success? && (!submitted || IsBlank(input)) ==> r.value.session.history == s.history
    ensures r.Failure? && r.error == CompletionFailed <==>
      submitted && !IsBlank(input) && complete(Messages(prompt, s.history, Strip(input))).None?
    ensures r.Failure? && r.error == NoLastExchange <==>
      (!submitted || IsBlank(input)) && s.lastInput != "" && s.history == []
  {
    match Submit(s, prompt, submitted, input, complete)
    case Failure(e) => Failure(e)
    case Success(s1) =>
      match Redisplay(s1)
      case Failure(e) => Failure(e)
      case Success((s2, again)) =>
        Success(Screen(s2, s.history + if again.Some? then [again.value] else []))
  }

  /** From a session whose last input is cleared, which every run leaves
      behind: a run fails only when the completion call fails, it clears the
      last input again, and the screen shows exactly the new history, the
      fresh exchange included. */
  lemma RunShowsHistory(s: Session, prompt: string, submitted: bool, input: string, complete: Completion)
    requires s.lastInput == ""
    ensures Run(s, prompt, submitted, input, complete).Failure? <==>
      submitted && !IsBlank(input) && complete(Messages(prompt, s.history, Strip(input))).None?
    ensures Run(s, prompt, submitted, input, complete).Success? ==>
      && Run(s, prompt, submitted, input, complete).value.session.lastInput == ""
      && Run(s, prompt, submitted, input, complete).value.shown == Run(s, prompt, submitted, input, complete).value.session.history
    ensures Run(s, prompt, submitted, input, complete).Success? && submitted && !IsBlank(input) ==>
      Run(s, prompt, submitted, input, complete).value.shown ==
        s.history + [(Strip(input), Strip(complete(Messages(prompt, s.history, Strip(input))).value))]
  {
    var r1 := Submit(s, prompt, submitted, input, complete);
    if r1.Success? {
      var s1 := r1.value;
      if submitted && !IsBlank(input) {
        assert s1.history == s.history + [s1.history[|s.history|]];
      }
    }
  }
}

=== FILE: chunker.dfy ===
/** `chunk_text` of extract.py: greedy packing of whitespace-separated words
    into chunks measured by a tokenizer. The tokenizer is abstract: any
    function from the joined chunk text to a token count. */
module Chunker {
  import opened Seqs
  import opened Text

  /** Default `max_tokens` of `chunk_text`. */
  const DefaultMaxTokens := 500

  /** Token count of a string under some fixed encoding. */
  type Tokenizer = string -> nat

  /** The `for word in words` loop from the state where the chunk under
      construction is `cur` and `rest` are the words not yet seen. Each word is
      appended; when the joined chunk then reaches the budget the word is taken
      back, the chunk emitted, and a new chunk started with that word alone. */
  function Pack(tokens: Tokenizer, maxTokens: int, cur: seq<string>, rest: seq<string>): (chunks: seq<seq<string>>)
    ensures Flatten(chunks) == cur + rest
    ensures cur != [] ==> chunks != [] && cur <= chunks[0]
    decreases |rest|
  {
    if rest == [] then
      if cur == [] then [] else [cur]
    else
      var w := rest[0];
      if tokens(Join(cur + [w])) >= maxTokens then
        var more := Pack(tokens, maxTokens, [w], rest[1..]);
        assert ([cur] + more)[1..] == more;
        assert cur + rest == cur + ([w] + rest[1..]);
        [cur] + more
      else
        assert cur + rest == (cur + [w]) + rest[1..];
        Pack(tokens, maxTokens, cur + [w], rest[1..])
  }

  /** `chunk_text` on the word list: the loop from an empty chunk. The chunks
      hold exactly the words, in order, and none of two or more words reaches
      the budget. */
  function ChunkWords(tokens: Tokenizer, maxTokens: int, words: seq<string>): (chunks: seq<seq<string>>)
    ensures Flatten(chunks) == words
    ensures UnderBudget(tokens, maxTokens, chunks)
    ensures PrefixesUnderBudget(tokens, maxTokens, chunks)
  {
    assert [] + words == words;
    PackUnderBudget(tokens, maxTokens, [], words);
    PackPrefixes(tokens, maxTokens, [], words);
    Pack(tokens, maxTokens, [], words)
  }

  /** Every chunk of two or more words measures strictly under the budget. */
  predicate UnderBudget(tokens: Tokenizer, maxTokens: int, chunks: seq<seq<string>>)
  {
    forall i :: 0 <= i < |chunks| && |chunks[i]| >= 2 ==> tokens(Join(chunks[i])) < maxTokens
  }

  /** Only a chunk of at most one word can be at or over the budget: a chunk
      grows past one word only when the grown chunk measured under it. */
  lemma {:induction false} PackUnderBudget(tokens: Tokenizer, maxTokens: int, cur: seq<string>, rest: seq<string>)
    requires |cur| >= 2 ==> tokens(Join(cur)) < maxTokens
    ensures UnderBudget(tokens, maxTokens, Pack(tokens, maxTokens, cur, rest))
    decreases |rest|
  {
    if rest != [] {
      var w := rest[0];
      if tokens(Join(cur + [w])) >= maxTokens {
        PackUnderBudget(tokens, maxTokens, [w], rest[1..]);
        var more := Pack(tokens, maxTokens, [w], rest[1..]);
        var chunks := [cur] + more;
        assert Pack(tokens, maxTokens, cur, rest) == chunks;
        forall i | 0 <= i < |chunks| && |chunks[i]| >= 2 ensures tokens(Join(chunks[i])) < maxTokens {
          if i > 0 {
            assert chunks[i] == more[i - 1];
          }
        }
      } else {
        PackUnderBudget(tokens, maxTokens, cur + [w], rest[1..]);
      }
    }
  }

  /** Every chunk grew only through measurements under the budget: each of its
      prefixes of two or more words measures strictly under it. */
  predicate PrefixesUnderBudget(tokens: Tokenizer, maxTokens: int, chunks: seq<seq<string>>)
  {
    forall i, k :: 0 <= i < |chunks| && 2 <= k <= |chunks[i]| ==> tokens(Join(chunks[i][..k])) < maxTokens
  }

  /** The loop measures every grown chunk, so no prefix of two or more words
      of an emitted chunk ever reached the budget. */
  lemma {:induction false} PackPrefixes(tokens: Tokenizer, maxTokens: int, cur: seq<string>, rest: seq<string>)
    requires forall k :: 2 <= k <= |cur| ==> tokens(Join(cur[..k])) < maxTokens
    ensures PrefixesUnderBudget(tokens, maxTokens, Pack(tokens, maxTokens, cur, rest))
    decreases |rest|
  {
    if rest == [] {
      if cur != [] {
        assert Pack(tokens, maxTokens, cur, rest) == [cur];
      }
    } else {
      var w := rest[0];
      if tokens(Join(cur + [w])) >= maxTokens {
        PackPrefixes(tokens, maxTokens, [w], rest[1..]);
        var more := Pack(tokens, maxTokens, [w], rest[1..]);
        var chunks := [cur] + more;
        assert Pack(tokens, maxTokens, cur, rest) == chunks;
        forall i, k | 0 <= i < |chunks| && 2 <= k <= |chunks[i]|
          ensures tokens(Join(chunks[i][..k])) < maxTokens
        {
          if i > 0 {
            assert chunks[i] == more[i - 1];
          }
        }
      } else {
        var grown := cur + [w];
        forall k | 2 <= k <= |grown| ensures tokens(Join(grown[..k])) < maxTokens {
          if k <= |cur| {
            assert grown[..k] == cur[..k];
          } else {
            assert grown[..k] == grown;
          }
        }
        PackPrefixes(tokens, maxTokens, grown, rest[1..]);
      }
    }
  }

  /** After the first, every chunk is non-empty, and each boundary sits where
      adding the next chunk's first word would reach the budget. */
  predicate Greedy(tokens: Tokenizer, maxTokens: int, chunks: seq<seq<string>>)
  {
    && (forall i :: 0 < i < |chunks| ==> chunks[i] != [])
    && (forall i :: 0 <= i < |chunks| - 1 ==>
          tokens(Join(chunks[i] + [chunks[i + 1][0]])) >= maxTokens)
  }

  /** Greedy packing: after the first, every chunk is non-empty, and each
      boundary sits where adding the next chunk's first word would reach the
      budget. */
  lemma {:induction false} PackGreedy(tokens: Tokenizer, maxTokens: int, cur: seq<string>, rest: seq<string>)
    ensures Greedy(tokens, maxTokens, Pack(tokens, maxTokens, cur, rest))
    decreases |rest|
  {
    if rest != [] {
      var w := rest[0];
      if tokens(Join(cur + [w])) >= maxTokens {
        PackGreedy(tokens, maxTokens, [w], rest[1..]);
        var more := Pack(tokens, maxTokens, [w], rest[1..]);
        var chunks := [cur] + more;
        assert Pack(tokens, maxTokens, cur, rest) == chunks;
        assert more[0][0] == w;
        forall i | 0 < i < |chunks| ensures chunks[i] != [] {
          assert chunks[i] == more[i - 1];
        }
        forall i | 0 <= i < |chunks| - 1
          ensures tokens(Join(chunks[i] + [chunks[i + 1][0]])) >= maxTokens
        {
          if i > 0 {
            assert chunks[i] == more[i - 1] && chunks[i + 1] == more[i];
          }
        }
      } else {
        PackGreedy(tokens, maxTokens, cur + [w], rest[1..]);
        assert Pack(tokens, maxTokens, cur, rest) == Pack(tokens, maxTokens, cur + [w], rest[1..]);
      }
    }
  }

  /** From a non-empty chunk, every emitted chunk is non-empty and there are
      at most as many further chunks as remaining words. */
  lemma {:induction false} PackNonEmpty(tokens: Tokenizer, maxTokens: int, cur: seq<string>, rest: seq<string>)
    requires cur != []
    ensures var chunks := Pack(tokens, maxTokens, cur, rest);
      && 1 <= |chunks| <= |rest| + 1
      && forall i :: 0 <= i < |chunks| ==> chunks[i] != []
    decreases |rest|
  {
    if rest != [] {
      var w := rest[0];
      if tokens(Join(cur + [w])) >= maxTokens {
        PackNonEmpty(tokens, maxTokens, [w], rest[1..]);
        var more := Pack(tokens, maxTokens, [w], rest[1..]);
        assert forall i :: 1 <= i < |[cur] + more| ==> ([cur] + more)[i] == more[i - 1];
      } else {
        PackNonEmpty(tokens, maxTokens, cur + [w], rest[1..]);
      }
    }
  }

  /** The empty chunk is emitted exactly when the first word alone reaches the
      budget, and then only as chunk 0; no words, no chunks; otherwise at most
      one chunk more than words. */
  lemma ChunkWordsShape(tokens: Tokenizer, maxTokens: int, words: seq<string>)
    ensures var chunks := ChunkWords(tokens, maxTokens, words);
      && (words == [] ==> chunks == [])
      && |chunks| <= |words| + 1
      && forall i :: 0 <= i < |chunks| ==>
           (chunks[i] == [] <==> i == 0 && tokens(Join([words[0]])) >= maxTokens)
  {
    if words != [] {
      var w := words[0];
      assert [] + [w] == [w];
      PackNonEmpty(tokens, maxTokens, [w], words[1..]);
      var more := Pack(tokens, maxTokens, [w], words[1..]);
      if tokens(Join([w])) >= maxTokens {
        var chunks := [[]] + more;
        assert ChunkWords(tokens, maxTokens, words) == chunks;
        assert forall i :: 1 <= i < |chunks| ==> chunks[i] == more[i - 1];
      } else {
        assert ChunkWords(tokens, maxTokens, words) == more;
      }
    }
  }

  /** Every word of a chunk is one of the words chunked. */
  lemma ChunkedWordsAreWords(tokens: Tokenizer, maxTokens: int, words: seq<string>)
    requires AllWords(words)
    ensures var chunks := ChunkWords(tokens, maxTokens, words);
      forall i :: 0 <= i < |chunks| ==> AllWords(chunks[i])
  {
    var chunks := ChunkWords(tokens, maxTokens, words);
    forall i, j | 0 <= i < |chunks| && 0 <= j < |chunks[i]| ensures IsWord(chunks[i][j]) {
      InFlatten(chunks, i, chunks[i][j]);
    }
  }

  /** The word list of each chunk string, as `split()` would give it back. */
  function ChunkWordLists(chunks: seq<string>): (wss: seq<seq<string>>)
    ensures |wss| == |chunks|
    ensures forall i :: 0 <= i < |chunks| ==> wss[i] == Split(chunks[i])
  {
    seq(|chunks|, i requires 0 <= i < |chunks| => Split(chunks[i]))
  }

  /** The chunk strings: each chunk's words joined by single spaces. */
  function JoinAll(cs: seq<seq<string>>): (chunks: seq<string>)
    ensures |chunks| == |cs|
    ensures forall i :: 0 <= i < |cs| ==> chunks[i] == Join(cs[i])
  {
    seq(|cs|, i requires 0 <= i < |cs| => Join(cs[i]))
  }

  /** Joining chunks of words loses nothing: splitting each joined chunk
      gives its words back, and only the empty chunk joins to `""`. */
  lemma JoinAllRoundTrip(cs: seq<seq<string>>)
    requires forall i :: 0 <= i < |cs| ==> AllWords(cs[i])
    ensures ChunkWordLists(JoinAll(cs)) == cs
    ensures forall i :: 0 <= i < |cs| ==> (JoinAll(cs)[i] == "" <==> cs[i] == [])
  {
    var chunks := JoinAll(cs);
    forall i | 0 <= i < |cs| ensures Split(chunks[i]) == cs[i] && (chunks[i] == "" <==> cs[i] == []) {
      SplitJoin(cs[i]);
      JoinBlank(cs[i]);
    }
  }

  /** `chunk_text(text, max_tokens)`. Its words, chunk by chunk, are exactly
      the words of `text`; a chunk of two or more words is strictly under the
      budget; `""` can only be chunk 0, when the first word alone reaches the
      budget; each boundary is forced by the next word; and there is at most
      one chunk more than words (none for a text without words). */
  function ChunkText(tokens: Tokenizer, maxTokens: int, text: string): (chunks: seq<string>)
    ensures Split(text) == [] ==> chunks == []
    ensures |chunks| <= |Split(text)| + 1
    ensures Flatten(ChunkWordLists(chunks)) == Split(text)
    ensures forall i :: 0 <= i < |chunks| && |Split(chunks[i])| >= 2 ==> tokens(chunks[i]) < maxTokens
    ensures forall i :: 0 <= i < |chunks| ==>
              (chunks[i] == "" <==> i == 0 && tokens(Split(text)[0]) >= maxTokens)
    ensures Greedy(tokens, maxTokens, ChunkWordLists(chunks))
    ensures PrefixesUnderBudget(tokens, maxTokens, ChunkWordLists(chunks))
    ensures forall i :: 0 <= i < |chunks| ==> chunks[i] == Join(ChunkWordLists(chunks)[i])
  {
    var words := Split(text);
    var cs := ChunkWords(tokens, maxTokens, words);
    ChunkedWordsAreWords(tokens, maxTokens, words);
    ChunkWordsShape(tokens, maxTokens, words);
    PackUnderBudget(tokens, maxTokens, [], words);
    PackGreedy(tokens, maxTokens, [], words);
    JoinAllRoundTrip(cs);
    assert words != [] ==> Join([words[0]]) == words[0];
    JoinAll(cs)
  }

  /** A tokenizer that counts one token per word. */
  function WordCount(s: string): nat
  {
    |Split(s)|
  }

  /** Each word as a chunk of its own. */
  function Singletons(ws: seq<string>): (cs: seq<seq<string>>)
    ensures |cs| == |ws|
    ensures forall i :: 0 <= i < |ws| ==> cs[i] == [ws[i]]
  {
    seq(|ws|, i requires 0 <= i < |ws| => [ws[i]])
  }

  lemma {:induction false} PackPairBudget(w: string, rest: seq<string>)
    requires IsWord(w) && AllWords(rest)
    ensures Pack(WordCount, 2, [w], rest) == Singletons([w] + rest)
    decreases |rest|
  {
    if rest != [] {
      var v := rest[0];
      PairCount(w, v);
      PackPairBudget(v, rest[1..]);
      assert Pack(WordCount, 2, [w], rest) == [[w]] + Pack(WordCount, 2, [v], rest[1..]);
      assert [v] + rest[1..] == rest;
      SingletonsCons(w, rest);
    }
  }

  lemma PairCount(w: string, v: string)
    requires IsWord(w) && IsWord(v)
    ensures WordCount(Join([w] + [v])) == 2
  {
    assert [w] + [v] == [w, v];
    SplitJoin([w, v]);
  }

  lemma SingletonsCons(w: string, rest: seq<string>)
    ensures Singletons([w] + rest) == [[w]] + Singletons(rest)
  {
  }

  /** With one token per word and a budget of two, the word lists of the
      chunks are the words one by one. */
  lemma ChunkWordsPairBudget(words: seq<string>)
    requires AllWords(words)
    ensures ChunkWords(WordCount, 2, words) == Singletons(words)
  {
    if words != [] {
      SplitJoin([words[0]]);
      assert [] + [words[0]] == [words[0]];
      PackPairBudget(words[0], words[1..]);
      assert [words[0]] + words[1..] == words;
    }
  }

  /** A one-word chunk joins to that word. */
  lemma JoinSingletons(ws: seq<string>)
    ensures JoinAll(Singletons(ws)) == ws
  {
    forall i | 0 <= i < |ws| ensures JoinAll(Singletons(ws))[i] == ws[i] {
      assert Join([ws[i]]) == ws[i];
    }
  }

  /** With one token per word and a budget of two, the `>=` test closes a
      chunk as soon as it would hold two words: every chunk is a single word,
      and the chunks are the words of the text. */
  lemma ChunkTextPairBudget(text: string)
    ensures ChunkText(WordCount, 2, text) == Split(text)
  {
    var words := Split(text);
    ChunkWordsPairBudget(words);
    JoinSingletons(words);
    assert ChunkText(WordCount, 2, text) == JoinAll(ChunkWords(WordCount, 2, words));
  }
}

=== FILE: crawler.dfy ===
/** crawl_adgm.py: a depth-first crawl from the site root that records every
    page it manages to fetch, then numbers the records. The web is an oracle:
    `page(url)` is the title, text and links of a fetched page, or `None` when
    fetching or parsing raised; `join` is `urljoin`. */
module Crawler {
  import opened Wrappers
  import opened Text

  const BaseUrl := "https://www.adgm.com"
  /** Calls with a larger depth return at once. */
  const MaxDepth := 2
  /** Characters of page text kept: `text[:3000]`. */
  const ContentLimit := 3000

  /** A parsed page: its `<title>` string (`""` without one), its visible
      text, and the `href` of every `<a href=…>`, in document order. */
  datatype Fetched = Fetched(title: string, text: string, hrefs: seq<string>)

  datatype Web = Web(page: string -> Option<Fetched>, join: (string, string) -> string)

  /** One entry of `data`. */
  datatype Page = Page(url: string, title: string, content: string)

  /** The module-level `visited` and `data`, plus the URLs passed to
      `requests.get`, in call order (an observation, not program state). */
  datatype CrawlState = CrawlState(visited: set<string>, data: seq<Page>, requests: seq<string>)

  const Initial := CrawlState({}, [], [])

  /** `url.startswith(BASE_URL)`: a string prefix test, not an origin test. */
  function InScope(url: string): (b: bool)
    ensures b <==> |BaseUrl| <= |url| && url[..|BaseUrl|] == BaseUrl
  {
    BaseUrl <= url
  }

  /** The scope test compares characters, not hosts: a different host whose
      name merely begins with the site's is in scope. */
  lemma PrefixIsNotOrigin()
    ensures InScope(BaseUrl + ".example.org/")
    ensures InScope(BaseUrl + "munity.example/")
    ensures !InScope("http://www.adgm.com")
  {
    assert "http://www.adgm.com"[4] != BaseUrl[4];
  }

  /** `s[:n]`. */
  function Truncate(s: string, n: nat): (r: string)
    ensures r <= s
    ensures |r| == if |s| <= n then |s| else n
  {
    if |s| <= n then s else s[..n]
  }

  /** The guard of line 11: such a call returns without doing anything. */
  predicate Skipped(url: string, depth: nat, st: CrawlState)
  {
    url in st.visited || !InScope(url) || depth > MaxDepth
  }

  /** `r` extends `st`: `visited` only grows, `data` and the requests are only
      appended to. */
  predicate Extends(st: CrawlState, r: CrawlState)
  {
    st.visited <= r.visited && st.data <= r.data && st.requests <= r.requests
  }

  /** The record a successful fetch of `url` stores. */
  function Record(url: string, p: Fetched): Page
  {
    Page(url, p.title, Truncate(p.text, ContentLimit))
  }

  /** What holds of the crawl state between calls: every URL requested is
      visited and in scope, and requested once; every record is in scope, was
      visited, stores its page's title and truncated text, and no two records
      share a URL. */
  ghost predicate Valid(web: Web, st: CrawlState)
  {
    && (forall u :: u in st.visited <==> u in st.requests)
    && (forall i :: 0 <= i < |st.requests| ==> InScope(st.requests[i]))
    && (forall i, j :: 0 <= i < j < |st.requests| ==> st.requests[i] != st.requests[j])
    && (forall i :: 0 <= i < |st.data| ==>
          && st.data[i].url in st.visited
          && InScope(st.data[i].url)
          && web.page(st.data[i].url).Some?
          && st.data[i] == Record(st.data[i].url, web.page(st.data[i].url).value))
    && (forall i, j :: 0 <= i < j < |st.data| ==> st.data[i].url != st.data[j].url)
  }

  /** Every visited URL whose page could be fetched has a record. */
  ghost predicate Complete(web: Web, st: CrawlState)
  {
    forall u :: u in st.visited && web.page(u).Some? ==>
      exists i :: 0 <= i < |st.data| && st.data[i].url == u
  }

  /** Recursion measure: the depth levels still allowed to fetch. */
  function Budget(depth: nat): nat
  {
    if depth <= MaxDepth then MaxDepth + 1 - depth else 0
  }

  /** `crawl(url, depth)`. A skipped call changes nothing; otherwise `url` is
      marked visited and then requested; a failed request ends the call, a
      successful one appends the page's record and crawls every link,
      resolved against `BASE_URL`, one level deeper. */
  function Crawl(web: Web, url: string, depth: nat, st: CrawlState): (r: CrawlState)
    ensures Extends(st, r)
    ensures Skipped(url, depth, st) ==> r == st
    ensures !Skipped(url, depth, st) ==> url in r.visited && |st.requests| < |r.requests| && r.requests[|st.requests|] == url
    ensures InScope(url) && depth <= MaxDepth ==> url in r.visited
    ensures !Skipped(url, depth, st) && web.page(url).None? ==>
      r == CrawlState(st.visited + {url}, st.data, st.requests + [url])
    ensures !Skipped(url, depth, st) && web.page(url).Some? ==>
      |st.data| < |r.data| && r.data[|st.data|] == Record(url, web.page(url).value)
    ensures !Skipped(url, depth, st) && web.page(url).Some? && depth < MaxDepth ==>
      LinksVisited(web, web.page(url).value.hrefs, r)
    ensures Valid(web, st) ==> Valid(web, r)
    ensures Complete(web, st) ==> Complete(web, r)
    decreases Budget(depth), 0, 0
  {
    if Skipped(url, depth, st) then st
    else
      var st1 := CrawlState(st.visited + {url}, st.data, st.requests + [url]);
      ValidVisit(web, url, st);
      match web.page(url)
      case None => st1
      case Some(p) =>
        var st2 := st1.(data := st1.data + [Record(url, p)]);
        ValidStore(web, url, st);
        CrawlLinks(web, p.hrefs, depth + 1, st2)
  }

  /** `for link in soup.find_all("a", href=True): crawl(urljoin(BASE_URL, link["href"]), depth + 1)`. */
  function CrawlLinks(web: Web, hrefs: seq<string>, depth: nat, st: CrawlState): (r: CrawlState)
    ensures Extends(st, r)
    ensures depth > MaxDepth ==> r == st
    ensures depth <= MaxDepth ==> LinksVisited(web, hrefs, r)
    ensures Valid(web, st) ==> Valid(web, r)
    ensures Complete(web, st) ==> Complete(web, r)
    decreases Budget(depth), 1, |hrefs|
  {
    if hrefs == [] then st
    else
      var st1 := Crawl(web, web.join(BaseUrl, hrefs[0]), depth, st);
      var r := CrawlLinks(web, hrefs[1..], depth, st1);
      if depth > MaxDepth then r
      else LinksVisitedStep(web, hrefs, st1, r); r
  }

  /** A single link is crawled as its target resolved against `BASE_URL`. */
  lemma CrawlLinksOne(web: Web, h: string, depth: nat, st: CrawlState)
    ensures CrawlLinks(web, [h], depth, st) == Crawl(web, web.join(BaseUrl, h), depth, st)
  {
    assert [h][1..] == [];
  }

  /** Links are followed in document order: the state after two consecutive
      runs of links is the first run's state carried through the second. With
      `CrawlLinksOne` this fixes the pre-order of requests and records. */
  lemma {:induction false} CrawlLinksAppend(web: Web, h1: seq<string>, h2: seq<string>, depth: nat, st: CrawlState)
    ensures CrawlLinks(web, h1 + h2, depth, st) == CrawlLinks(web, h2, depth, CrawlLinks(web, h1, depth, st))
    decreases |h1|
  {
    if h1 == [] {
      assert h1 + h2 == h2;
    } else {
      var st1 := Crawl(web, web.join(BaseUrl, h1[0]), depth, st);
      assert (h1 + h2)[0] == h1[0] && (h1 + h2)[1..] == h1[1..] + h2;
      CrawlLinksAppend(web, h1[1..], h2, depth, st1);
    }
  }

  /** Every in-scope target of the links, resolved against `BASE_URL`, has
      been visited. */
  predicate LinksVisited(web: Web, hrefs: seq<string>, st: CrawlState)
  {
    forall i :: 0 <= i < |hrefs| && InScope(web.join(BaseUrl, hrefs[i])) ==> web.join(BaseUrl, hrefs[i]) in st.visited
  }

  lemma LinksVisitedStep(web: Web, hrefs: seq<string>, st1: CrawlState, r: CrawlState)
    requires hrefs != [] && st1.visited <= r.visited
    requires InScope(web.join(BaseUrl, hrefs[0])) ==> web.join(BaseUrl, hrefs[0]) in st1.visited
    requires LinksVisited(web, hrefs[1..], r)
    ensures LinksVisited(web, hrefs, r)
  {
    forall i | 1 <= i < |hrefs| ensures hrefs[i] == hrefs[1..][i - 1] {
    }
  }

  /** Marking an unvisited, in-scope URL visited and requesting it keeps the
      state valid. */
  lemma ValidVisit(web: Web, url: string, st: CrawlState)
    requires url !in st.visited && InScope(url)
    ensures Valid(web, st) ==> Valid(web, CrawlState(st.visited + {url}, st.data, st.requests + [url]))
  {
    if Valid(web, st) {
      var rs := st.requests + [url];
      assert url !in st.requests;
      forall i, j | 0 <= i < j < |rs| ensures rs[i] != rs[j] {
        if j == |st.requests| {
          assert rs[i] == st.requests[i];
        }
      }
    }
  }

  /** Storing the record of a URL that was unvisited before this call keeps
      the state valid. */
  lemma ValidStore(web: Web, url: string, st: CrawlState)
    requires url !in st.visited && InScope(url) && web.page(url).Some?
    ensures Valid(web, st) ==>
      Valid(web, CrawlState(st.visited + {url}, st.data + [Record(url, web.page(url).value)], st.requests + [url]))
  {
    if Valid(web, st) {
      ValidVisit(web, url, st);
    }
  }

  /** Running the crawl: `crawl(BASE_URL)` from empty `visited` and `data`. */
  function CrawlSite(web: Web): (r: CrawlState)
    ensures Valid(web, r)
    ensures Complete(web, r)
  {
    Crawl(web, BaseUrl, 1, Initial)
  }

  /** The links of the root page, when it could be fetched. */
  function SeedLinks(web: Web): seq<string>
  {
    match web.page(BaseUrl)
    case None => []
    case Some(p) => p.hrefs
  }

  /** Where the links of a page lead: each href resolved against `BASE_URL`. */
  function Targets(web: Web, hrefs: seq<string>): set<string>
  {
    set h | h in hrefs :: web.join(BaseUrl, h)
  }

  /** A call at the last allowed depth requests at most its own URL, stores
      at most its own record, and follows no link. */
  lemma CrawlAtMaxDepth(web: Web, url: string, st: CrawlState)
    ensures Crawl(web, url, MaxDepth, st).visited <= st.visited + {url}
    ensures |Crawl(web, url, MaxDepth, st).data| <= |st.data| + 1
    ensures |Crawl(web, url, MaxDepth, st).requests| <= |st.requests| + 1
  {
  }

  /** The links of a page at depth 1 lead only to their own targets, each
      giving at most one request and one record. */
  lemma {:induction false} LinksAtMaxDepth(web: Web, hrefs: seq<string>, st: CrawlState)
    ensures CrawlLinks(web, hrefs, MaxDepth, st).visited <= st.visited + Targets(web, hrefs)
    ensures |CrawlLinks(web, hrefs, MaxDepth, st).data| <= |st.data| + |hrefs|
    ensures |CrawlLinks(web, hrefs, MaxDepth, st).requests| <= |st.requests| + |hrefs|
  {
    if hrefs != [] {
      var target := web.join(BaseUrl, hrefs[0]);
      var st1 := Crawl(web, target, MaxDepth, st);
      CrawlAtMaxDepth(web, target, st);
      LinksAtMaxDepth(web, hrefs[1..], st1);
      assert Targets(web, hrefs) == {target} + Targets(web, hrefs[1..]);
    }
  }

  /** The whole crawl requests the root and, at most, the targets of the
      root's links (resolved against `BASE_URL`), each once and all in scope;
      it stores at most one record more than the root has links, all with
      distinct URLs, and the first request is the root. */
  lemma SiteBounds(web: Web)
    ensures CrawlSite(web).visited <= {BaseUrl} + Targets(web, SeedLinks(web))
    ensures |CrawlSite(web).data| <= 1 + |SeedLinks(web)|
    ensures |CrawlSite(web).requests| <= 1 + |SeedLinks(web)|
    ensures CrawlSite(web).requests[0] == BaseUrl
  {
    assert !Skipped(BaseUrl, 1, Initial);
    match web.page(BaseUrl)
    case None =>
    case Some(p) =>
      var st1 := CrawlState(Initial.visited + {BaseUrl}, Initial.data, Initial.requests + [BaseUrl]);
      var st2 := st1.(data := st1.data + [Record(BaseUrl, p)]);
      assert CrawlSite(web) == CrawlLinks(web, p.hrefs, 1 + 1, st2);
      assert st2 == CrawlState({BaseUrl}, [Record(BaseUrl, p)], [BaseUrl]);
      LinksAtMaxDepth(web, p.hrefs, st2);
  }

  /** One object of the saved JSON file. */
  datatype SavedPage = SavedPage(id: string, url: string, title: string, content: string)

  /** Lines 28-29 of crawl_adgm.py: `d["id"] = str(i + 1)` for every record.
      The records keep their order and contents, and their ids read as the
      numbers 1 to N in that order, so no two are equal. */
  function Save(data: seq<Page>): (saved: seq<SavedPage>)
    ensures |saved| == |data|
    ensures forall i :: 0 <= i < |data| ==>
      && saved[i].url == data[i].url
      && saved[i].title == data[i].title
      && saved[i].content == data[i].content
      && (forall k :: 0 <= k < |saved[i].id| ==> IsDigit(saved[i].id[k]))
      && saved[i].id == NatToDecimal(i + 1)
      && DecimalValue(saved[i].id) == i + 1
    ensures forall i, j :: 0 <= i < j < |saved| ==> saved[i].id != saved[j].id
  {
    var saved := seq(|data|, i requires 0 <= i < |data| =>
      SavedPage(NatToDecimal(i + 1), data[i].url, data[i].title, data[i].content));
    assert forall i :: 0 <= i < |data| ==> DecimalValue(saved[i].id) == i + 1 by {
      forall i | 0 <= i < |data| ensures DecimalValue(saved[i].id) == i + 1 {
        DecimalRoundTrip(i + 1);
      }
    }
    saved
  }
}

=== FILE: seqs.dfy ===
/** Sequence helpers: flattening a sequence of sequences. */
module Seqs {

  /** Concatenation of all the inner sequences, in order. */
  function Flatten<T>(xss: seq<seq<T>>): seq<T>
  {
    if xss == [] then [] else xss[0] + Flatten(xss[1..])
  }

  /** Every element of an inner sequence occurs in the flattening. */
  lemma {:induction false} InFlatten<T>(xss: seq<seq<T>>, i: nat, x: T)
    requires i < |xss| && x in xss[i]
    ensures x in Flatten(xss)
  {
    if i > 0 {
      InFlatten(xss[1..], i - 1, x);
    }
  }
}

=== FILE: sitemap.dfy ===
/** parse_sitemap.py: the `<loc>` text of every `<url>` entry of a sitemap,
    written one per line; and the round trip through extract.py, which reads
    that file back with `readlines()` and `strip()`. XML parsing itself is
    abstracted: the model starts from the element tree. */
module Sitemap {
  import opened Wrappers
  import opened Text
  import VectorStore

  /** The sitemap schema namespace, in ElementTree's `{uri}` tag notation. */
  const Namespace := "{http://www.sitemaps.org/schemas/sitemap/0.9}"
  const UrlTag := Namespace + "url"
  const LocTag := Namespace + "loc"

  /** An element as ElementTree exposes it; `text` is `None` for an element
      without character data (`<loc/>`). */
  datatype Element = Element(tag: string, text: Option<string>, children: seq<Element>)

  /** Why the script stops: `find` returned `None` for the `<url>` at this
      position and `.text` raised, or the `<loc>` text at this position was
      `None` and `u + "\n"` raised. */
  datatype SitemapError = NoLoc(index: nat) | NoText(index: nat)

  /** Position of the first child with the given tag, or the number of
      children when there is none. */
  function FirstIndex(children: seq<Element>, tag: string): (k: nat)
    ensures k <= |children|
    ensures forall j :: 0 <= j < k ==> children[j].tag != tag
    ensures k < |children| ==> children[k].tag == tag
  {
    if children == [] then 0
    else if children[0].tag == tag then 0
    else 1 + FirstIndex(children[1..], tag)
  }

  /** `element.find(tag)`: the first direct child with that tag. */
  function Find(e: Element, tag: string): (r: Option<Element>)
    ensures r.None? <==> forall i :: 0 <= i < |e.children| ==> e.children[i].tag != tag
    ensures r.Some? ==> r.value.tag == tag && r.value in e.children
    ensures r.Some? ==>
      FirstIndex(e.children, tag) < |e.children| && r.value == e.children[FirstIndex(e.children, tag)]
  {
    var k := FirstIndex(e.children, tag);
    if k < |e.children| then Some(e.children[k]) else None
  }

  /** `element.findall(tag)`: the direct children with that tag, in document
      order. */
  function FindAll(children: seq<Element>, tag: string): (r: seq<Element>)
    ensures |r| <= |children|
    ensures forall i :: 0 <= i < |r| ==> r[i].tag == tag && r[i] in children
    ensures forall i :: 0 <= i < |children| && children[i].tag == tag ==> children[i] in r
  {
    if children == [] then []
    else if children[0].tag == tag then [children[0]] + FindAll(children[1..], tag)
    else FindAll(children[1..], tag)
  }

  /** `findall` keeps document order: the entries of two consecutive runs of
      children are those of the first run followed by those of the second. */
  lemma {:induction false} FindAllAppend(a: seq<Element>, b: seq<Element>, tag: string)
    ensures FindAll(a + b, tag) == FindAll(a, tag) + FindAll(b, tag)
  {
    if a == [] {
      assert a + b == b;
    } else {
      assert (a + b)[1..] == a[1..] + b;
      FindAllAppend(a[1..], b, tag);
    }
  }

  /** The `<loc>` text of each `<url>` entry, in order; fails at the first
      entry that has no `<loc>` child. */
  function LocTexts(entries: seq<Element>): (r: Result<seq<Option<string>>, nat>)
    ensures r.Success? <==> forall i :: 0 <= i < |entries| ==> Find(entries[i], LocTag).Some?
    ensures r.Success? ==>
      && |r.value| == |entries|
      && forall i :: 0 <= i < |entries| ==>
           Find(entries[i], LocTag).Some? && r.value[i] == Find(entries[i], LocTag).value.text
    ensures r.Failure? ==>
      && r.error < |entries|
      && Find(entries[r.error], LocTag).None?
      && forall j :: 0 <= j < r.error ==> Find(entries[j], LocTag).Some?
  {
    if entries == [] then Success([])
    else
      match Find(entries[0], LocTag)
      case None => Failure(0)
      case Some(loc) =>
        match LocTexts(entries[1..])
        case Failure(k) =>
          LocFailureShift(entries, k);
          Failure(k + 1)
        case Success(rest) =>
          LocTextsShift(entries, loc, rest);
          Success([loc.text] + rest)
  }

  lemma LocFailureShift(entries: seq<Element>, k: nat)
    requires entries != [] && Find(entries[0], LocTag).Some?
    requires k < |entries| - 1 && Find(entries[1..][k], LocTag).None?
    requires forall j :: 0 <= j < k ==> Find(entries[1..][j], LocTag).Some?
    ensures Find(entries[k + 1], LocTag).None?
    ensures forall j :: 0 <= j < k + 1 ==> Find(entries[j], LocTag).Some?
  {
    assert entries[k + 1] == entries[1..][k];
    forall j | 0 < j < k + 1 ensures Find(entries[j], LocTag).Some? {
      assert entries[j] == entries[1..][j - 1];
    }
  }

  lemma LocTextsShift(entries: seq<Element>, loc: Element, rest: seq<Option<string>>)
    requires entries != [] && Find(entries[0], LocTag) == Some(loc)
    requires |rest| == |entries| - 1
    requires forall i :: 0 <= i < |rest| ==>
      Find(entries[1..][i], LocTag).Some? && rest[i] == Find(entries[1..][i], LocTag).value.text
    ensures forall i :: 0 <= i < |entries| ==>
      Find(entries[i], LocTag).Some? && ([loc.text] + rest)[i] == Find(entries[i], LocTag).value.text
  {
    forall i | 0 < i < |entries|
      ensures Find(entries[i], LocTag).Some? && ([loc.text] + rest)[i] == Find(entries[i], LocTag).value.text
    {
      assert entries[i] == entries[1..][i - 1];
    }
  }

  /** Lines 7-11 of parse_sitemap.py: one entry per `<url>` child of the
      root, in document order, each the text of that entry's first `<loc>`. */
  function ExtractUrls(root: Element): (r: Result<seq<Option<string>>, SitemapError>)
    ensures r.Success? <==> forall i :: 0 <= i < |FindAll(root.children, UrlTag)| ==>
      Find(FindAll(root.children, UrlTag)[i], LocTag).Some?
    ensures r.Success? ==>
      && |r.value| == |FindAll(root.children, UrlTag)|
      && forall i :: 0 <= i < |r.value| ==>
           Find(FindAll(root.children, UrlTag)[i], LocTag).Some?
           && r.value[i] == Find(FindAll(root.children, UrlTag)[i], LocTag).value.text
    ensures r.Failure? ==>
      && r.error.NoLoc?
      && r.error.index < |FindAll(root.children, UrlTag)|
      && Find(FindAll(root.children, UrlTag)[r.error.index], LocTag).None?
  {
    match LocTexts(FindAll(root.children, UrlTag))
    case Success(urls) => Success(urls)
    case Failure(k) => Failure(NoLoc(k))
  }

  /** The file text `for u in urls: f.write(u + "\n")` produces: empty for
      no URLs, and otherwise ending in the newline written after the last. */
  function Serialize(urls: seq<string>): (file: string)
    ensures urls == [] <==> file == []
    ensures urls != [] ==> file[|file| - 1] == '\n'
  {
    if urls == [] then "" else urls[0] + "\n" + Serialize(urls[1..])
  }

  /** One URL is written as itself followed by a newline, whatever it holds. */
  lemma SerializeOne(u: string)
    ensures Serialize([u]) == u + "\n"
  {
    assert [u][1..] == [];
    assert u + "\n" + "" == u + "\n";
  }

  /** The URLs are written one after another: with `SerializeOne` this fixes
      the file for every list of URLs. */
  lemma {:induction false} SerializeAppend(a: seq<string>, b: seq<string>)
    ensures Serialize(a + b) == Serialize(a) + Serialize(b)
  {
    if a == [] {
      assert a + b == b;
    } else {
      assert (a + b)[0] == a[0] && (a + b)[1..] == a[1..] + b;
      SerializeAppend(a[1..], b);
    }
  }

  /** Writing the list: fails at the first entry whose `<loc>` had no text. */
  function WriteUrlFile(urls: seq<Option<string>>): (r: Result<string, SitemapError>)
    ensures r.Success? <==> forall i :: 0 <= i < |urls| ==> urls[i].Some?
    ensures r.Failure? ==>
      && r.error.NoText?
      && r.error.index < |urls| && urls[r.error.index].None?
      && forall j :: 0 <= j < r.error.index ==> urls[j].Some?
  {
    if urls == [] then Success("")
    else
      match urls[0]
      case None => Failure(NoText(0))
      case Some(u) =>
        match WriteUrlFile(urls[1..])
        case Failure(e) => Failure(NoText(e.index + 1))
        case Success(rest) => Success(u + "\n" + rest)
  }

  /** A successful write is the serialisation of the texts. */
  lemma {:induction false} WriteUrlFileSerializes(urls: seq<Option<string>>)
    requires WriteUrlFile(urls).Success?
    ensures WriteUrlFile(urls).value == Serialize(Values(urls))
  {
    if urls != [] {
      WriteUrlFileSerializes(urls[1..]);
      assert Values(urls)[1..] == Values(urls[1..]);
    }
  }

  /** The texts of a list whose entries are all present. */
  function Values(urls: seq<Option<string>>): (vs: seq<string>)
    requires forall i :: 0 <= i < |urls| ==> urls[i].Some?
    ensures |vs| == |urls|
    ensures forall i :: 0 <= i < |urls| ==> urls[i] == Some(vs[i])
  {
    seq(|urls|, i requires 0 <= i < |urls| => urls[i].value)
  }

  lemma {:induction false} LineLenOfLine(u: string, rest: string)
    requires HasNoNewline(u)
    ensures LineLen(u + "\n" + rest) == |u| + 1
  {
    if u != [] {
      assert (u + "\n" + rest)[1..] == u[1..] + "\n" + rest;
      LineLenOfLine(u[1..], rest);
    }
  }

  /** Each URL without a newline comes back from `readlines()` as its own
      line, newline attached. */
  lemma {:induction false} ReadLinesSerialize(urls: seq<string>)
    requires forall i :: 0 <= i < |urls| ==> HasNoNewline(urls[i])
    ensures |ReadLines(Serialize(urls))| == |urls|
    ensures forall i :: 0 <= i < |urls| ==> ReadLines(Serialize(urls))[i] == urls[i] + "\n"
  {
    if urls != [] {
      var s := Serialize(urls);
      var n := |urls[0]| + 1;
      LineLenOfLine(urls[0], Serialize(urls[1..]));
      assert s[..n] == urls[0] + "\n";
      assert s[n..] == Serialize(urls[1..]);
      ReadLinesSerialize(urls[1..]);
      var ls := ReadLines(s);
      assert ls == [urls[0] + "\n"] + ReadLines(Serialize(urls[1..]));
      forall i | 0 < i < |urls| ensures ls[i] == urls[i] + "\n" {
        assert ls[i] == ReadLines(Serialize(urls[1..]))[i - 1];
      }
    }
  }

  /** The URL file round trip: what extract.py reads back from the file
      parse_sitemap.py writes is the list of stripped URLs, one per URL
      written, so the count printed at the end is the number of lines;
      URLs without surrounding whitespace come back unchanged. A URL holding
      a `'\r'` is excluded: reading in text mode would break the line there. */
  lemma UrlFileRoundTrip(urls: seq<string>)
    requires forall i :: 0 <= i < |urls| ==> HasNoNewline(urls[i]) && '\r' !in urls[i]
    ensures |VectorStore.ReadUrlFile(Serialize(urls))| == |urls|
    ensures forall i :: 0 <= i < |urls| ==> VectorStore.ReadUrlFile(Serialize(urls))[i] == Strip(urls[i])
    ensures (forall i :: 0 <= i < |urls| ==> IsTrimmed(urls[i])) ==> VectorStore.ReadUrlFile(Serialize(urls)) == urls
  {
    UrlFileEntries(urls);
    var read := VectorStore.ReadUrlFile(Serialize(urls));
    if forall i :: 0 <= i < |urls| ==> IsTrimmed(urls[i]) {
      TrimmedEntries(read, urls);
    }
  }

  lemma UrlFileEntries(urls: seq<string>)
    requires forall i :: 0 <= i < |urls| ==> HasNoNewline(urls[i])
    ensures |VectorStore.ReadUrlFile(Serialize(urls))| == |urls|
    ensures forall i :: 0 <= i < |urls| ==> VectorStore.ReadUrlFile(Serialize(urls))[i] == Strip(urls[i])
  {
    var file := Serialize(urls);
    ReadLinesSerialize(urls);
    StripNewlines(urls, ReadLines(file), VectorStore.ReadUrlFile(file));
  }

  /** Entries that are the stripped URLs are the URLs themselves when those
      have no surrounding whitespace. */
  lemma TrimmedEntries(read: seq<string>, urls: seq<string>)
    requires |read| == |urls|
    requires forall i :: 0 <= i < |urls| ==> read[i] == Strip(urls[i]) && IsTrimmed(urls[i])
    ensures read == urls
  {
    forall i | 0 <= i < |urls| ensures read[i] == urls[i] {
      StripTrimmed(urls[i]);
    }
  }

  /** Stripping lines that are the URLs with a newline appended gives the
      stripped URLs. */
  lemma StripNewlines(urls: seq<string>, lines: seq<string>, read: seq<string>)
    requires |lines| == |urls| && |read| == |lines|
    requires forall i :: 0 <= i < |urls| ==> lines[i] == urls[i] + "\n"
    requires forall i :: 0 <= i < |read| ==> read[i] == Strip(lines[i])
    ensures forall i :: 0 <= i < |urls| ==> read[i] == Strip(urls[i])
  {
    forall i | 0 <= i < |urls| ensures Strip(lines[i]) == Strip(urls[i]) {
      StripTrailingSpace(urls[i], '\n');
    }
  }

  /** The two scripts in sequence: when the sitemap yields its URL list and
      every entry has text without a line break, extract.py reads back exactly
      the stripped texts, in sitemap order. */
  lemma SitemapToUrlList(root: Element)
    requires ExtractUrls(root).Success?
    requires WriteUrlFile(ExtractUrls(root).value).Success?
    requires forall i :: 0 <= i < |ExtractUrls(root).value| ==>
      && ExtractUrls(root).value[i].Some?
      && HasNoNewline(ExtractUrls(root).value[i].value)
      && '\r' !in ExtractUrls(root).value[i].value
    ensures VectorStore.ReadUrlFile(WriteUrlFile(ExtractUrls(root).value).value)
      == VectorStore.StripLines(Values(ExtractUrls(root).value))
  {
    var urls := ExtractUrls(root).value;
    WriteUrlFileSerializes(urls);
    UrlFileRoundTrip(Values(urls));
  }
}

=== FILE: text.dfy ===
/** The pieces of Python's `str` that the pipeline relies on, modelled
    concretely: `isspace`, `split()`, `strip()`, `" ".join`, `readlines()` on
    text already read from a file, and `str(n)` for a natural number. */
module Text {
  import opened Seqs

  /** Python's `str.isspace()` for one character: the set `split()` and
      `strip()` use when called without an argument. */
  predicate IsSpace(c: char)
  {
    || ('\t' <= c <= '\r')                      // \t \n \v \f \r
    || ('\U{001C}' <= c <= '\U{001F}')          // file/group/record/unit separators
    || c == ' '
    || c == '\U{0085}' || c == '\U{00A0}' || c == '\U{1680}'
    || ('\U{2000}' <= c <= '\U{200A}')
    || c == '\U{2028}' || c == '\U{2029}' || c == '\U{202F}'
    || c == '\U{205F}' || c == '\U{3000}'
  }

  /** A string made of whitespace only (the empty string included). */
  predicate IsBlank(s: string)
  {
    forall i :: 0 <= i < |s| ==> IsSpace(s[i])
  }

  /** What `split()` can return as one element: non-empty, no whitespace. */
  predicate IsWord(w: string)
  {
    w != [] && forall i :: 0 <= i < |w| ==> !IsSpace(w[i])
  }

  predicate AllWords(ws: seq<string>)
  {
    forall i :: 0 <= i < |ws| ==> IsWord(ws[i])
  }

  /** No whitespace at either end: what `strip()` leaves. */
  predicate IsTrimmed(s: string)
  {
    s == [] || (!IsSpace(s[0]) && !IsSpace(s[|s| - 1]))
  }

  predicate HasNoNewline(s: string)
  {
    forall i :: 0 <= i < |s| ==> s[i] != '\n'
  }

  // ---------------------------------------------------------------- split

  /** Length of the longest whitespace-free prefix of `s`. */
  function WordLen(s: string): (n: nat)
    ensures n <= |s|
    ensures forall i :: 0 <= i < n ==> !IsSpace(s[i])
    ensures n < |s| ==> IsSpace(s[n])
  {
    if s == [] || IsSpace(s[0]) then 0 else 1 + WordLen(s[1..])
  }

  /** `s.split()`: the maximal runs of non-whitespace characters, in order. */
  function Split(s: string): (ws: seq<string>)
    ensures AllWords(ws)
    ensures ws == [] <==> IsBlank(s)
    decreases |s|
  {
    if s == [] then []
    else if IsSpace(s[0]) then
      var ws := Split(s[1..]);
      assert IsBlank(s[1..]) ==> IsBlank(s) by {
        if IsBlank(s[1..]) {
          forall i | 0 <= i < |s| ensures IsSpace(s[i]) {
            if i > 0 { assert s[i] == s[1..][i - 1]; }
          }
        }
      }
      ws
    else
      var n := WordLen(s);
      [s[..n]] + Split(s[n..])
  }

  // ----------------------------------------------------------------- join

  /** `" ".join(ws)`: the words in order, one space between neighbours. */
  function Join(ws: seq<string>): (r: string)
    ensures ws == [] ==> r == ""
    ensures ws != [] ==> ws[0] <= r && |r| == |Flatten(ws)| + |ws| - 1
  {
    if ws == [] then "" else if |ws| == 1 then ws[0] else ws[0] + " " + Join(ws[1..])
  }

  lemma {:induction false} WordLenOfWord(w: string, rest: string)
    requires IsWord(w)
    requires rest == [] || IsSpace(rest[0])
    ensures WordLen(w + rest) == |w|
  {
    if |w| > 1 {
      assert (w + rest)[1..] == w[1..] + rest;
      WordLenOfWord(w[1..], rest);
    } else {
      assert (w + rest)[1..] == rest;
    }
  }

  lemma SplitAfterWord(w: string, rest: string)
    requires IsWord(w)
    requires rest == [] || IsSpace(rest[0])
    ensures Split(w + rest) == [w] + Split(rest)
  {
    WordLenOfWord(w, rest);
    var s := w + rest;
    assert s[..|w|] == w;
    assert s[|w|..] == rest;
  }

  lemma SplitAfterSpace(rest: string)
    ensures Split(" " + rest) == Split(rest)
  {
    assert (" " + rest)[1..] == rest;
  }

  /** A single word splits to itself. */
  lemma SplitOfWord(w: string)
    requires IsWord(w)
    ensures Split(w) == [w]
  {
    SplitAfterWord(w, "");
    assert w + "" == w;
  }

  /** A text whose first word ends before its end keeps that first word
      whatever follows. */
  lemma {:induction false} WordLenPrefix(a: string, rest: string)
    requires WordLen(a) < |a|
    ensures WordLen(a + rest) == WordLen(a)
    decreases |a|
  {
    if !IsSpace(a[0]) {
      assert (a + rest)[1..] == a[1..] + rest;
      WordLenPrefix(a[1..], rest);
    }
  }

  /** `split()` cuts at every whitespace character: the words on either side
      of one are split independently. With `Split("") == []` and
      `SplitOfWord`, this pins `split()` down to the maximal runs of
      non-whitespace, in order. */
  lemma {:induction false} SplitAtSpace(a: string, c: char, b: string)
    requires IsSpace(c)
    ensures Split(a + [c] + b) == Split(a) + Split(b)
    decreases |a|
  {
    var s := a + [c] + b;
    if a == [] {
      assert s[1..] == b;
    } else if IsSpace(a[0]) {
      assert s[1..] == a[1..] + [c] + b;
      SplitAtSpace(a[1..], c, b);
    } else {
      var m := WordLen(a);
      if m < |a| {
        assert s == a + ([c] + b);
        WordLenPrefix(a, [c] + b);
        assert s[..m] == a[..m];
        assert s[m..] == a[m..] + [c] + b;
        SplitAtSpace(a[m..], c, b);
      } else {
        assert IsWord(a);
        assert s == a + ([c] + b);
        SplitAfterWord(a, [c] + b);
        assert ([c] + b)[1..] == b;
        SplitOfWord(a);
      }
    }
  }

  /** `split()` undoes `" ".join` on a list of words: the join and split
      of a chunk's words round-trip. */
  lemma {:induction false} SplitJoin(ws: seq<string>)
    requires AllWords(ws)
    ensures Split(Join(ws)) == ws
  {
    if |ws| == 1 {
      SplitOfWord(ws[0]);
    } else if |ws| > 1 {
      SplitJoin(ws[1..]);
      SplitJoinStep(ws[0], Join(ws[1..]), ws[1..]);
      assert ws == [ws[0]] + ws[1..];
    }
  }

  lemma SplitJoinStep(w: string, j: string, rest: seq<string>)
    requires IsWord(w) && Split(j) == rest
    ensures Split(w + " " + j) == [w] + rest
  {
    assert w + " " + j == w + (" " + j);
    SplitAfterWord(w, " " + j);
    SplitAfterSpace(j);
  }

  /** A join of words is blank exactly when there are no words. */
  lemma JoinBlank(ws: seq<string>)
    requires AllWords(ws)
    ensures IsBlank(Join(ws)) <==> ws == []
  {
    SplitJoin(ws);
  }

  // ---------------------------------------------------------------- strip

  /** `s.lstrip()`. */
  function TrimStart(s: string): (r: string)
    ensures |r| <= |s| && r == s[|s| - |r|..]
    ensures IsBlank(s[..|s| - |r|])
    ensures r == [] || !IsSpace(r[0])
  {
    if s != [] && IsSpace(s[0]) then
      var r := TrimStart(s[1..]);
      TrimStartStep(s, r);
      r
    else s
  }

  /** Cutting the leading whitespace of `s[1..]` cuts that of `s` when `s`
      starts with whitespace. */
  lemma TrimStartStep(s: string, r: string)
    requires s != [] && IsSpace(s[0])
    requires |r| <= |s| - 1 && r == s[1..][|s| - 1 - |r|..]
    requires IsBlank(s[1..][..|s| - 1 - |r|])
    ensures r == s[|s| - |r|..]
    ensures IsBlank(s[..|s| - |r|])
  {
    var k := |s| - |r|;
    assert s[1..][k - 1..] == s[k..];
    forall i | 0 < i < k ensures IsSpace(s[..k][i]) {
      assert s[..k][i] == s[1..][..k - 1][i - 1];
    }
  }

  /** `s.rstrip()`. */
  function TrimEnd(s: string): (r: string)
    ensures |r| <= |s| && r == s[..|r|]
    ensures IsBlank(s[|r|..])
    ensures r == [] || !IsSpace(r[|r| - 1])
  {
    if s != [] && IsSpace(s[|s| - 1]) then
      var r := TrimEnd(s[..|s| - 1]);
      assert s[|r|..] == s[..|s| - 1][|r|..] + [s[|s| - 1]];
      r
    else s
  }

  /** Whitespace on both sides of a concatenation is whitespace of the whole. */
  lemma BlankConcat(a: string, b: string)
    ensures IsBlank(a + b) <==> IsBlank(a) && IsBlank(b)
  {
    if IsBlank(a + b) {
      forall i | 0 <= i < |a| ensures IsSpace(a[i]) {
        assert a[i] == (a + b)[i];
      }
      forall i | 0 <= i < |b| ensures IsSpace(b[i]) {
        assert b[i] == (a + b)[|a| + i];
      }
    }
  }

  /** The facts `Strip` promises, proved about its two halves. */
  lemma StripParts(s: string, k: nat, t: string, r: string)
    requires k + |t| == |s| && t == s[k..] && IsBlank(s[..k])
    requires t == [] || !IsSpace(t[0])
    requires |r| <= |t| && r == t[..|r|] && IsBlank(t[|r|..])
    requires r == [] || !IsSpace(r[|r| - 1])
    ensures r == [] <==> IsBlank(s)
    ensures IsTrimmed(r)
    ensures CutFrom(s, k, r)
  {
    assert s == s[..k] + t;
    assert t == r + t[|r|..];
    assert t[|r|..] == s[k + |r|..];
    BlankConcat(s[..k], t);
    BlankConcat(r, t[|r|..]);
    if r != [] {
      assert r[0] == t[0];
    }
  }

  /** `r` is the piece of `s` from position `k` on, with only whitespace cut
      on either side of it. */
  predicate CutFrom(s: string, k: nat, r: string)
  {
    && k + |r| <= |s|
    && r == s[k..k + |r|]
    && IsBlank(s[..k]) && IsBlank(s[k + |r|..])
  }

  /** `s.strip()`: `s` with its leading and trailing whitespace removed. */
  function Strip(s: string): (r: string)
    ensures r == [] <==> IsBlank(s)
    ensures IsTrimmed(r)
    ensures CutFrom(s, StripStart(s), r)
  {
    var t := TrimStart(s);
    var r := TrimEnd(t);
    var k := StripStart(s);
    assert k == |s| - |t|;
    StripParts(s, k, t, r);
    r
  }

  /** Number of leading whitespace characters `strip()` removes. */
  function StripStart(s: string): (k: nat)
    ensures k <= |s|
  {
    |s| - |TrimStart(s)|
  }

  /** A string with no whitespace at either end is its own `strip()`. */
  lemma StripTrimmed(s: string)
    requires IsTrimmed(s)
    ensures Strip(s) == s
  {
  }

  lemma {:induction false} TrimStartAppend(s: string, x: string)
    requires !IsBlank(s)
    ensures TrimStart(s + x) == TrimStart(s) + x
  {
    assert s != [];
    if IsSpace(s[0]) {
      assert (s + x)[1..] == s[1..] + x;
      assert !IsBlank(s[1..]) by {
        var i :| 0 <= i < |s| && !IsSpace(s[i]);
        assert s[1..][i - 1] == s[i];
      }
      TrimStartAppend(s[1..], x);
    }
  }

  /** A trailing whitespace character makes no difference to `strip()`. */
  lemma StripTrailingSpace(s: string, c: char)
    requires IsSpace(c)
    ensures Strip(s + [c]) == Strip(s)
  {
    if IsBlank(s) {
      BlankConcat(s, [c]);
    } else {
      BlankConcat(s, [c]);
      TrimStartAppend(s, [c]);
      var t := TrimStart(s);
      assert (t + [c])[..|t|] == t;
      assert TrimEnd(t + [c]) == TrimEnd(t);
    }
  }

  // ------------------------------------------------------------ readlines

  /** Length of the first line of `s`, its terminating newline included. */
  function LineLen(s: string): (n: nat)
    requires s != []
    ensures 1 <= n <= |s|
    ensures forall i :: 0 <= i < n - 1 ==> s[i] != '\n'
    ensures n < |s| ==> s[n - 1] == '\n'
  {
    if s[0] == '\n' || |s| == 1 then 1 else 1 + LineLen(s[1..])
  }

  /** `ls` cuts `s` into lines: together they are `s`, none is empty, each
      but the last ends in `'\n'`, and none has a `'\n'` before its last
      character. */
  predicate LineSplit(s: string, ls: seq<string>)
  {
    && Flatten(ls) == s
    && (forall i :: 0 <= i < |ls| ==> ls[i] != [])
    && (forall i :: 0 <= i < |ls| - 1 ==> ls[i][|ls[i]| - 1] == '\n')
    && (forall i :: 0 <= i < |ls| ==> ls[i] != [] && HasNoNewline(ls[i][..|ls[i]| - 1]))
  }

  /** `readlines()` on the text of a file: each line keeps its `'\n'`; a
      last line without one is returned as it is. */
  function ReadLines(s: string): (ls: seq<string>)
    ensures LineSplit(s, ls)
    decreases |s|
  {
    if s == [] then []
    else
      var n := LineLen(s);
      var rest := ReadLines(s[n..]);
      ReadLinesStep(s, n, rest);
      [s[..n]] + rest
  }

  /** The first line of `s` followed by a line split of the remainder is a
      line split of `s`. */
  lemma ReadLinesStep(s: string, n: nat, rest: seq<string>)
    requires 1 <= n <= |s|
    requires forall i :: 0 <= i < n - 1 ==> s[i] != '\n'
    requires n < |s| ==> s[n - 1] == '\n'
    requires n == |s| ==> rest == []
    requires LineSplit(s[n..], rest)
    ensures LineSplit(s, [s[..n]] + rest)
  {
    var line := s[..n];
    var ls := [line] + rest;
    assert ls[1..] == rest;
    assert s == line + s[n..];
    var pre := line[..n - 1];
    forall i | 0 <= i < |pre| ensures pre[i] != '\n' {
      assert pre[i] == s[i];
    }
    assert forall i :: 1 <= i < |ls| ==> ls[i] == rest[i - 1];
  }

  // --------------------------------------------------------------- str(n)

  predicate IsDigit(c: char)
  {
    '0' <= c <= '9'
  }

  function DigitChar(d: nat): (c: char)
    requires d < 10
    ensures IsDigit(c)
  {
    (48 + d) as char
  }

  function DigitValue(c: char): nat
    requires IsDigit(c)
  {
    c as int - 48
  }

  /** `str(n)` for a natural number: decimal digits, no sign, no leading zero. */
  function NatToDecimal(n: nat): (s: string)
    ensures s != [] && forall i :: 0 <= i < |s| ==> IsDigit(s[i])
    ensures |s| > 1 ==> s[0] != '0'
  {
    if n < 10 then [DigitChar(n)] else NatToDecimal(n / 10) + [DigitChar(n % 10)]
  }

  /** `int(s)` for a string of decimal digits. */
  function DecimalValue(s: string): nat
    requires forall i :: 0 <= i < |s| ==> IsDigit(s[i])
  {
    if s == [] then 0 else 10 * DecimalValue(s[..|s| - 1]) + DigitValue(s[|s| - 1])
  }

  /** Reading `str(n)` back as a number gives `n`. */
  lemma {:induction false} DecimalRoundTrip(n: nat)
    ensures DecimalValue(NatToDecimal(n)) == n
  {
    if n >= 10 {
      var s := NatToDecimal(n);
      assert s[..|s| - 1] == NatToDecimal(n / 10);
      DecimalRoundTrip(n / 10);
    }
  }

  /** Distinct numbers print as distinct strings. */
  lemma DecimalInjective(m: nat, n: nat)
    requires m != n
    ensures NatToDecimal(m) != NatToDecimal(n)
  {
    DecimalRoundTrip(m);
    DecimalRoundTrip(n);
  }
}

=== FILE: vector_store.dfy ===
/** The vector-store build of extract.py: read the URL list, fetch and clean
    each page, chunk it, embed every non-blank chunk with up to three attempts,
    and collect `{url, text, embedding}` records in order. Fetching and
    embedding are oracles; an embedding is an opaque value of type `E`. */
module VectorStore {
  import opened Wrappers
  import opened Text
  import opened Chunker

  /** Attempts per chunk: `for attempt in range(3)`. */
  const EmbedAttempts := 3

  /** One entry of `vector_store`. */
  datatype Record<E> = Record(url: string, text: string, embedding: E)

  /** The records built so far and the number of embedding calls made so far. */
  datatype Batch<E> = Batch(records: seq<Record<E>>, calls: nat)

  /** `requests.get` followed by `get_text`; `None` when either raised. */
  type Fetcher = string -> Option<string>

  /** The embedding service: the outcome of the `n`-th call of the run on the
      given input; `None` when the call (or reading its response) raised. */
  type EmbedService<E> = (nat, string) -> Option<E>

  /** `[line.strip() for line in f.readlines()]`: the URL list as read from
      the file's text, one entry per line: entry `i` is line `i` stripped, so
      no entry carries whitespace at its ends or a newline. */
  function ReadUrlFile(file: string): (urls: seq<string>)
    ensures |urls| == |ReadLines(file)|
    ensures forall i :: 0 <= i < |urls| ==> urls[i] == Strip(ReadLines(file)[i])
    ensures forall i :: 0 <= i < |urls| ==> IsTrimmed(urls[i]) && HasNoNewline(urls[i])
  {
    var lines := ReadLines(file);
    StripLinesClean(lines);
    StripLines(lines)
  }

  lemma StripLinesClean(lines: seq<string>)
    requires forall i :: 0 <= i < |lines| ==> lines[i] != [] && HasNoNewline(lines[i][..|lines[i]| - 1])
    ensures forall i :: 0 <= i < |lines| ==> IsTrimmed(StripLines(lines)[i]) && HasNoNewline(StripLines(lines)[i])
  {
    forall i | 0 <= i < |lines| ensures HasNoNewline(Strip(lines[i])) {
      StrippedLineHasNoNewline(lines[i]);
    }
  }

  /** `line.strip()` for each line. */
  function StripLines(lines: seq<string>): (stripped: seq<string>)
    ensures |stripped| == |lines|
    ensures forall i :: 0 <= i < |lines| ==> stripped[i] == Strip(lines[i])
  {
    seq(|lines|, i requires 0 <= i < |lines| => Strip(lines[i]))
  }

  /** A line of `readlines()` has at most its last character as newline, and
      `strip()` removes that one. */
  lemma StrippedLineHasNoNewline(line: string)
    requires line != [] && HasNoNewline(line[..|line| - 1])
    ensures HasNoNewline(Strip(line))
  {
    NoNewlineInside(line, StripStart(line), Strip(line));
  }

  /** A piece of a line that does not end in its newline has none. */
  lemma NoNewlineInside(line: string, a: nat, r: string)
    requires line != [] && HasNoNewline(line[..|line| - 1])
    requires a + |r| <= |line| && r == line[a..a + |r|]
    requires IsTrimmed(r)
    ensures HasNoNewline(r)
  {
    assert IsSpace('\n');
    forall i | 0 <= i < |r| ensures r[i] != '\n' {
      if a + i < |line| - 1 {
        assert r[i] == line[..|line| - 1][a + i];
      }
    }
  }

  /** `fetch_clean_text(url)`: the page text, or `""` when fetching raised. */
  function FetchCleanText(fetch: Fetcher, url: string): string
  {
    match fetch(url)
    case None => ""
    case Some(text) => text
  }

  /** The retry loop from overall call number `calls` with `attempts` attempts
      left: the first successful call wins and stops the loop. */
  function Retry<E>(embed: EmbedService<E>, text: string, calls: nat, attempts: nat): (r: (Option<E>, nat))
    ensures calls <= r.1 <= calls + attempts
    ensures r.0.Some? <==> exists k :: calls <= k < calls + attempts && embed(k, text).Some?
    ensures r.0.Some? ==> calls < r.1 && r.0 == embed(r.1 - 1, text)
    ensures forall k :: calls <= k < r.1 - 1 ==> embed(k, text).None?
    ensures r.0.None? ==> r.1 == calls + attempts && forall k :: calls <= k < r.1 ==> embed(k, text).None?
    decreases attempts
  {
    if attempts == 0 then (None, calls)
    else
      match embed(calls, text)
      case Some(e) => (Some(e), calls + 1)
      case None => Retry(embed, text, calls + 1, attempts - 1)
  }

  /** The `for attempt in range(3)` loop for one chunk: at most three calls,
      at least one; a record exactly when one of them succeeds, carrying the
      first successful embedding; three failures use all three calls and
      store nothing. */
  function EmbedWithRetry<E>(embed: EmbedService<E>, url: string, chunk: string, calls: nat): (b: Batch<E>)
    ensures |b.records| <= 1
    ensures calls < b.calls <= calls + EmbedAttempts
    ensures b.records != [] <==> exists k :: calls <= k < calls + EmbedAttempts && embed(k, chunk).Some?
    ensures b.records != [] ==>
      embed(b.calls - 1, chunk).Some? && b.records[0] == Record(url, chunk, embed(b.calls - 1, chunk).value)
    ensures forall k :: calls <= k < b.calls - 1 ==> embed(k, chunk).None?
    ensures b.records == [] ==> b.calls == calls + EmbedAttempts
  {
    var (e, calls') := Retry(embed, chunk, calls, EmbedAttempts);
    match e
    case Some(v) => Batch([Record(url, chunk, v)], calls')
    case None => Batch([], calls')
  }

  /** One iteration of `for chunk in chunks` (extract.py): a blank chunk is
      skipped without calling the service; any other goes through the retry
      loop. The test `not chunk.strip()` is written as `IsBlank(chunk)`: by
      the contract of `Strip`, `strip()` is empty exactly for blank text. */
  function EmbedChunk<E>(embed: EmbedService<E>, url: string, chunk: string, calls: nat): (b: Batch<E>)
    ensures |b.records| <= 1
    ensures IsBlank(chunk) ==> b == Batch([], calls)
    ensures !IsBlank(chunk) ==> b == EmbedWithRetry(embed, url, chunk, calls)
  {
    if IsBlank(chunk) then Batch([], calls)
    else EmbedWithRetry(embed, url, chunk, calls)
  }

  /** A batch followed by the next one: their records in order, and the
      later call counter. */
  function Then<E>(b1: Batch<E>, b2: Batch<E>): Batch<E>
  {
    Batch(b1.records + b2.records, b2.calls)
  }

  lemma ThenAssociative<E>(b1: Batch<E>, b2: Batch<E>, b3: Batch<E>)
    ensures Then(b1, Then(b2, b3)) == Then(Then(b1, b2), b3)
  {
    assert b1.records + (b2.records + b3.records) == (b1.records + b2.records) + b3.records;
  }

  /** The chunk loop for one URL: every record comes from a non-blank chunk of
      this URL, at most one per chunk. */
  function EmbedChunks<E>(embed: EmbedService<E>, url: string, chunks: seq<string>, calls: nat): (b: Batch<E>)
    ensures calls <= b.calls
    ensures |b.records| <= |chunks|
  {
    if chunks == [] then Batch([], calls)
    else
      var head := EmbedChunk(embed, url, chunks[0], calls);
      Then(head, EmbedChunks(embed, url, chunks[1..], head.calls))
  }

  /** A one-chunk loop is that chunk's step: with `EmbedChunksAppend` this
      fixes the loop's result for every list of chunks. */
  lemma EmbedChunksOne<E>(embed: EmbedService<E>, url: string, c: string, calls: nat)
    ensures EmbedChunks(embed, url, [c], calls) == EmbedChunk(embed, url, c, calls)
  {
    var head := EmbedChunk(embed, url, c, calls);
    assert [c][1..] == [];
    assert head.records + [] == head.records;
  }

  /** The body of `for url in urls`: an empty or failed fetch skips the URL
      before any embedding call; otherwise its chunks, as `chunk_text` with
      the default budget cuts them, go through the chunk loop in order. */
  function ProcessUrl<E>(fetch: Fetcher, tokens: Tokenizer, embed: EmbedService<E>, url: string, calls: nat): (b: Batch<E>)
    ensures FetchCleanText(fetch, url) == "" ==> b == Batch([], calls)
    ensures fetch(url).None? ==> b == Batch([], calls)
    ensures fetch(url).Some? && fetch(url).value != "" ==>
      b == EmbedChunks(embed, url, ChunkText(tokens, DefaultMaxTokens, fetch(url).value), calls)
  {
    var content := FetchCleanText(fetch, url);
    if content == "" then Batch([], calls)
    else EmbedChunks(embed, url, ChunkText(tokens, DefaultMaxTokens, content), calls)
  }

  /** The whole build loop over the URL list. */
  function Build<E>(fetch: Fetcher, tokens: Tokenizer, embed: EmbedService<E>, urls: seq<string>, calls: nat): (b: Batch<E>)
    ensures calls <= b.calls
  {
    if urls == [] then Batch([], calls)
    else
      var head := ProcessUrl(fetch, tokens, embed, urls[0], calls);
      Then(head, Build(fetch, tokens, embed, urls[1..], head.calls))
  }

  /** A one-URL build is that URL's step: with `BuildAppend` this fixes the
      build's result for every URL list. */
  lemma BuildOne<E>(fetch: Fetcher, tokens: Tokenizer, embed: EmbedService<E>, u: string, calls: nat)
    ensures Build(fetch, tokens, embed, [u], calls) == ProcessUrl(fetch, tokens, embed, u, calls)
  {
    var head := ProcessUrl(fetch, tokens, embed, u, calls);
    assert [u][1..] == [];
    assert head.records + [] == head.records;
  }

  /** A record is stored only for a non-blank chunk of the URL it names. */
  predicate FromChunkOf<E>(r: Record<E>, url: string, chunks: seq<string>)
  {
    r.url == url && r.text in chunks && !IsBlank(r.text)
  }

  predicate AllFromChunksOf<E>(records: seq<Record<E>>, url: string, chunks: seq<string>)
  {
    forall i :: 0 <= i < |records| ==> FromChunkOf(records[i], url, chunks)
  }

  /** Every record of a URL's chunk loop names that URL and carries one of its
      non-blank chunks. */
  lemma {:induction false} EmbedChunksProvenance<E>(embed: EmbedService<E>, url: string, chunks: seq<string>, calls: nat)
    ensures AllFromChunksOf(EmbedChunks(embed, url, chunks, calls).records, url, chunks)
  {
    if chunks != [] {
      var head := EmbedChunk(embed, url, chunks[0], calls);
      EmbedChunksProvenance(embed, url, chunks[1..], head.calls);
      EmbedChunkProvenance(embed, url, chunks[0], calls);
      FromChunksConcat(head.records, EmbedChunks(embed, url, chunks[1..], head.calls).records, url, chunks);
    }
  }

  lemma EmbedChunkProvenance<E>(embed: EmbedService<E>, url: string, chunk: string, calls: nat)
    ensures AllFromChunksOf(EmbedChunk(embed, url, chunk, calls).records, url, [chunk])
  {
    if !IsBlank(chunk) {
      var b := EmbedWithRetry(embed, url, chunk, calls);
      assert EmbedChunk(embed, url, chunk, calls) == b;
      if b.records != [] {
        assert b.records == [b.records[0]];
        assert b.records[0].url == url && b.records[0].text == chunk;
      }
    } else {
      assert EmbedChunk(embed, url, chunk, calls).records == [];
    }
  }

  lemma FromChunksConcat<E>(r1: seq<Record<E>>, r2: seq<Record<E>>, url: string, chunks: seq<string>)
    requires chunks != []
    requires AllFromChunksOf(r1, url, [chunks[0]])
    requires AllFromChunksOf(r2, url, chunks[1..])
    ensures AllFromChunksOf(r1 + r2, url, chunks)
  {
    var rs := r1 + r2;
    forall i | 0 <= i < |rs| ensures FromChunkOf(rs[i], url, chunks) {
      if i < |r1| {
        assert rs[i] == r1[i];
      } else {
        assert rs[i] == r2[i - |r1|];
      }
    }
  }

  /** Each record names a URL of the list whose fetch succeeded, and its text
      is a non-blank chunk of that URL's content. */
  predicate AllFromFetchedUrls<E>(fetch: Fetcher, tokens: Tokenizer, records: seq<Record<E>>, urls: seq<string>)
  {
    forall i :: 0 <= i < |records| ==>
      && records[i].url in urls
      && fetch(records[i].url).Some?
      && FromChunkOf(records[i], records[i].url,
           ChunkText(tokens, DefaultMaxTokens, FetchCleanText(fetch, records[i].url)))
  }

  /** The records of one URL come from that URL's fetched content. */
  lemma ProcessUrlProvenance<E>(fetch: Fetcher, tokens: Tokenizer, embed: EmbedService<E>, url: string, calls: nat)
    ensures AllFromFetchedUrls(fetch, tokens, ProcessUrl(fetch, tokens, embed, url, calls).records, [url])
  {
    var content := FetchCleanText(fetch, url);
    if content != "" {
      EmbedChunksProvenance(embed, url, ChunkText(tokens, DefaultMaxTokens, content), calls);
    }
  }

  lemma FromFetchedUrlsConcat<E>(fetch: Fetcher, tokens: Tokenizer, r1: seq<Record<E>>, r2: seq<Record<E>>, urls: seq<string>)
    requires urls != []
    requires AllFromFetchedUrls(fetch, tokens, r1, [urls[0]])
    requires AllFromFetchedUrls(fetch, tokens, r2, urls[1..])
    ensures AllFromFetchedUrls(fetch, tokens, r1 + r2, urls)
  {
    var rs := r1 + r2;
    forall i | 0 <= i < |rs| ensures rs[i].url in urls {
      if i < |r1| {
        assert rs[i] == r1[i];
      } else {
        assert rs[i] == r2[i - |r1|];
      }
    }
  }

  /** Every stored record names a URL of the list whose fetch succeeded, and
      its text is a non-blank chunk of that URL's content. */
  lemma {:induction false} BuildProvenance<E>(fetch: Fetcher, tokens: Tokenizer, embed: EmbedService<E>, urls: seq<string>, calls: nat)
    ensures AllFromFetchedUrls(fetch, tokens, Build(fetch, tokens, embed, urls, calls).records, urls)
  {
    if urls != [] {
      var head := ProcessUrl(fetch, tokens, embed, urls[0], calls);
      BuildProvenance(fetch, tokens, embed, urls[1..], head.calls);
      ProcessUrlProvenance(fetch, tokens, embed, urls[0], calls);
      var tail := Build(fetch, tokens, embed, urls[1..], head.calls);
      FromFetchedUrlsConcat(fetch, tokens, head.records, tail.records, urls);
    }
  }

  /** Chunk order: the records of two consecutive runs of chunks are the
      records of the first run followed by those of the second. */
  lemma {:induction false} EmbedChunksAppend<E>(embed: EmbedService<E>, url: string, c1: seq<string>, c2: seq<string>, calls: nat)
    ensures EmbedChunks(embed, url, c1 + c2, calls)
      == Then(EmbedChunks(embed, url, c1, calls), EmbedChunks(embed, url, c2, EmbedChunks(embed, url, c1, calls).calls))
  {
    if c1 == [] {
      assert c1 + c2 == c2;
    } else {
      assert (c1 + c2)[1..] == c1[1..] + c2;
      var head := EmbedChunk(embed, url, c1[0], calls);
      EmbedChunksAppend(embed, url, c1[1..], c2, head.calls);
      ThenAssociative(head, EmbedChunks(embed, url, c1[1..], head.calls),
        EmbedChunks(embed, url, c2, EmbedChunks(embed, url, c1[1..], head.calls).calls));
    }
  }

  /** URL order: building from two consecutive URL lists gives the records of
      the first list followed by those of the second. */
  lemma {:induction false} BuildAppend<E>(fetch: Fetcher, tokens: Tokenizer, embed: EmbedService<E>, u1: seq<string>, u2: seq<string>, calls: nat)
    ensures Build(fetch, tokens, embed, u1 + u2, calls)
      == Then(Build(fetch, tokens, embed, u1, calls), Build(fetch, tokens, embed, u2, Build(fetch, tokens, embed, u1, calls).calls))
  {
    if u1 == [] {
      assert u1 + u2 == u2;
    } else {
      assert (u1 + u2)[1..] == u1[1..] + u2;
      var head := ProcessUrl(fetch, tokens, embed, u1[0], calls);
      BuildAppend(fetch, tokens, embed, u1[1..], u2, head.calls);
      ThenAssociative(head, Build(fetch, tokens, embed, u1[1..], head.calls),
        Build(fetch, tokens, embed, u2, Build(fetch, tokens, embed, u1[1..], head.calls).calls));
    }
  }

  /** The non-blank chunks, in order. */
  function NonBlank(chunks: seq<string>): (kept: seq<string>)
    ensures |kept| <= |chunks|
  {
    if chunks == [] then []
    else if IsBlank(chunks[0]) then NonBlank(chunks[1..])
    else [chunks[0]] + NonBlank(chunks[1..])
  }

  /** The texts of a list of records. */
  function Texts<E>(records: seq<Record<E>>): (texts: seq<string>)
    ensures |texts| == |records|
    ensures forall i :: 0 <= i < |records| ==> texts[i] == records[i].text
  {
    seq(|records|, i requires 0 <= i < |records| => records[i].text)
  }

  /** With a service that never fails, every non-blank chunk is stored once,
      in order, each with the embedding of its first call. */
  lemma {:induction false} EmbedChunksAllSucceed<E>(embed: EmbedService<E>, url: string, chunks: seq<string>, calls: nat)
    requires forall k, t :: embed(k, t).Some?
    ensures Texts(EmbedChunks(embed, url, chunks, calls).records) == NonBlank(chunks)
    ensures EmbedChunks(embed, url, chunks, calls).calls == calls + |NonBlank(chunks)|
  {
    if chunks != [] {
      var head := EmbedChunk(embed, url, chunks[0], calls);
      var tail := EmbedChunks(embed, url, chunks[1..], head.calls);
      EmbedChunksAllSucceed(embed, url, chunks[1..], head.calls);
      assert embed(calls, chunks[0]).Some?;
      EmbedChunkSucceeds(embed, url, chunks[0], calls);
      AllSucceedStep(chunks, head, tail, calls);
    }
  }

  lemma AllSucceedStep<E>(chunks: seq<string>, head: Batch<E>, tail: Batch<E>, calls: nat)
    requires chunks != []
    requires Texts(head.records) == (if IsBlank(chunks[0]) then [] else [chunks[0]])
    requires head.calls == (if IsBlank(chunks[0]) then calls else calls + 1)
    requires Texts(tail.records) == NonBlank(chunks[1..])
    requires tail.calls == head.calls + |NonBlank(chunks[1..])|
    ensures Texts(Then(head, tail).records) == NonBlank(chunks)
    ensures Then(head, tail).calls == calls + |NonBlank(chunks)|
  {
    assert NonBlank(chunks) == (if IsBlank(chunks[0]) then [] else [chunks[0]]) + NonBlank(chunks[1..]);
    TextsAppend(head.records, tail.records);
  }

  lemma TextsAppend<E>(r1: seq<Record<E>>, r2: seq<Record<E>>)
    ensures Texts(r1 + r2) == Texts(r1) + Texts(r2)
  {
  }

  lemma EmbedChunkSucceeds<E>(embed: EmbedService<E>, url: string, chunk: string, calls: nat)
    requires embed(calls, chunk).Some?
    ensures Texts(EmbedChunk(embed, url, chunk, calls).records) == if IsBlank(chunk) then [] else [chunk]
    ensures EmbedChunk(embed, url, chunk, calls).calls == if IsBlank(chunk) then calls else calls + 1
  {
    if !IsBlank(chunk) {
      var e := embed(calls, chunk);
      assert Retry(embed, chunk, calls, EmbedAttempts) == (e, calls + 1);
      assert EmbedWithRetry(embed, url, chunk, calls) == Batch([Record(url, chunk, e.value)], calls + 1);
    }
  }

  /** With a service that never fails, a URL whose page was fetched stores
      one record for every non-blank chunk of its text, in order. */
  lemma ProcessUrlAllSucceed<E>(fetch: Fetcher, tokens: Tokenizer, embed: EmbedService<E>, url: string, calls: nat)
    requires forall k, t :: embed(k, t).Some?
    requires fetch(url).Some?
    ensures Texts(ProcessUrl(fetch, tokens, embed, url, calls).records)
      == NonBlank(ChunkText(tokens, DefaultMaxTokens, fetch(url).value))
  {
    var text := fetch(url).value;
    if text != "" {
      EmbedChunksAllSucceed(embed, url, ChunkText(tokens, DefaultMaxTokens, text), calls);
    } else {
      assert Split(text) == [];
    }
  }

  /** With a service that always fails, every non-blank chunk costs exactly
      three calls and nothing is stored. */
  lemma {:induction false} EmbedChunksAllFail<E>(embed: EmbedService<E>, url: string, chunks: seq<string>, calls: nat)
    requires forall k, t :: embed(k, t).None?
    ensures EmbedChunks(embed, url, chunks, calls).records == []
    ensures EmbedChunks(embed, url, chunks, calls).calls == calls + EmbedAttempts * |NonBlank(chunks)|
  {
    if chunks != [] {
      var head := EmbedChunk(embed, url, chunks[0], calls);
      EmbedChunksAllFail(embed, url, chunks[1..], head.calls);
    }
  }

  /** A build against a service that always fails stores nothing. */
  lemma {:induction false} BuildAllFail<E>(fetch: Fetcher, tokens: Tokenizer, embed: EmbedService<E>, urls: seq<string>, calls: nat)
    requires forall k, t :: embed(k, t).None?
    ensures Build(fetch, tokens, embed, urls, calls).records == []
  {
    if urls != [] {
      var head := ProcessUrl(fetch, tokens, embed, urls[0], calls);
      var content := FetchCleanText(fetch, urls[0]);
      if content != "" {
        EmbedChunksAllFail(embed, urls[0], ChunkText(tokens, DefaultMaxTokens, content), calls);
      }
      BuildAllFail(fetch, tokens, embed, urls[1..], head.calls);
    }
  }
}

=== FILE: wrappers.dfy ===
/** Failure-carrying values shared by the whole model: an `Option` for an
    oracle call that may raise, and a `Result` for an operation that ends in a
    Python exception. */
module Wrappers {

  datatype Option<+T> = None | Some(value: T)

  datatype Result<+R, +E> = Success(value: R) | Failure(error: E)
}
